=== FILE: README.md ===
# My Secure Portal: a Dafny model of its decision logic

My Secure Portal is a small international-payments portal. It has two parts:

- **An Express/MongoDB backend** (`Backend/server.js`). It registers customers, logs them in with a short-lived access token and a long-lived refresh token, refreshes and revokes those tokens, lists and creates a customer's payments, and reads and updates the caller's own profile.
- **A React front end.** `src/App.js` holds the customer/employee portal with its whitelist patterns and input sanitiser. The `src/pages/*.jsx` files hold the payment, registration, details and dashboard pages.

This project models the decision logic of both halves as pure Dafny functions over immutable datatypes and proves properties of it.

- **Backend routes.** Each route is a function `Store × Request → Outcome`. The store holds users, payments and refresh-token records (`Records`). The outcome is the new store plus the response: a status code and a JSON body.
- **Foreign code.** The libraries the server calls enter as the function fields of a `Services` value (`Tokens`):
  - JWT signing and decoding;
  - bcrypt hash and compare;
  - express-validator's `isEmail` and `normalizeEmail`.

  What the proofs need of them (decode undoes sign, a password matches its own hash) is the ghost predicate `Tokens.Sound`. Lemmas that rely on it require it.
- **Clock.** The clock is a parameter `nowMs`. JWT times are whole seconds, `nowMs / 1000`, as jsonwebtoken reads them.
- **Module layout.**
  - `Gate`: `requireAuth`.
  - `Accounts`: `/register` and `/login`.
  - `Sessions`: `/token/refresh` and `/logout`.
  - `Ledger` and `PaymentRoutes`: `GET` and `POST /payments`.
  - `Profile`: `GET` and `PATCH /me`.
  - `Backend`: routes one request to its handler, and states the invariants all routes keep.
- **Client.**
  - `Patterns`: the whitelist regular expressions, written as character-class predicates. The email, amount and SWIFT patterns (`IsEmail`, `IsAmount`, `IsSwiftCode`) are each proved equal to a reading of the regular expression that chooses its split points. The username, account-number and password patterns are direct character-class readings.
  - `Sanitize`: `sanitizeInput`.
  - `AppForm`: the portal's form state, `handleChange`, and the `handleRegister` and `handlePayment` guards.
  - `PaymentPage`, `RegisterPage`, `DetailsPage` and `DashboardPage`: the pages. The pages' first-failure-wins check chains are proved equal to one reference rule, `Guards.FirstFailure`.
  - `Portal`: relates what the client posts to what the server accepts.

Two facts about the backend shape the model:

- The backend has no user roles, no payment status, no payment-verification endpoint and no employee listing. The client calls the last two, but no handler for them exists.
- The server checks passwords only for length. The complexity rule is enforced only by the client's pattern.

## Model

| member | source | states |
|---|---|---|
| Tokens.Verify | Backend/server.js:109 | a token verifies exactly when it decodes with the secret and the clock's second is before its `exp`, and then yields its payload |
| Tokens.AccessTokenLifetime | Backend/server.js:81-92 | an issued access token verifies to userId, email, username and accountNumber exactly until 15 minutes after the second it was issued in |
| Tokens.RefreshTokenLifetime | Backend/server.js:94-96 | an issued refresh token verifies to the bare user id exactly until 30 days after its issue second |
| Gate.BearerTokenIff | Backend/server.js:104-106 | the split-on-space check accepts a header exactly when it is "Bearer", one space, a non-empty space-free token, then nothing or a space; so a double space or another scheme is malformed |
| Gate.RequireAuth | Backend/server.js:99-115 | four outcomes in order: missing header, bad format and failed verification give their distinct 401s; otherwise the decoded payload is attached |
| Gate.IssuedTokenAuthenticates | Backend/server.js:81-115 | a live access token this server issued, sent as a bearer header, passes the gate with its own payload |
| Gate.RefreshTokenAuthenticates | Backend/server.js:94-115 | the gate does not distinguish token kinds: a live refresh token passes it too |
| Records.UserIndex | Backend/server.js:256 | `findById` finds the first user with the id, or reports that none has it |
| Accounts.RegisterIssues | Backend/server.js:132-147 | no failure is reported exactly when the trimmed username has at least 3 characters, the email passes `isEmail`, the password has at least 8 characters, and a supplied account number is trimmed alphanumeric of length 4 to 20. Lengths are counted as `isLength` counts them, without the variation selectors U+FE0E and U+FE0F. No failure is listed twice |
| Accounts.VariationSelectorNotCounted | Backend/server.js:134-136 | the username "ab" followed by U+FE0F has three code points but is too short for `isLength({ min: 3 })` |
| Accounts.RegisterIssuesReport | Backend/server.js:132-147 | each validator's failure appears in the list exactly when that validator fails, independently of the others |
| Accounts.Register | Backend/server.js:149-176 | validation failure gives 400 with the list and an unchanged store; a taken normalised email gives 400 "User already exists" and an unchanged store; otherwise exactly one user is appended, with the sanitised fields, the hash of the password and the next id, and nothing else changes |
| Accounts.RegisterStoresHashOnly | Backend/server.js:163-169 | the stored password differs from the one given, and the given one matches it under compare |
| Accounts.RegisterKeepsEmailsUnique | Backend/server.js:159-161 | registration never creates two users with one email |
| Accounts.FindByIdentifier | Backend/server.js:202-204 | the `$or` lookup finds the earliest user whose email or username equals the identifier |
| Accounts.Login | Backend/server.js:180-243 | a missing password gives 400 "password required" and a missing identifier or empty password gives 400 "Missing credentials"; every 401 is "Invalid credentials"; success happens exactly when the user authenticates, appends one refresh record expiring 30 days on, and returns both tokens |
| Accounts.LoginFailuresAlike | Backend/server.js:206-220 | an unknown user, a disagreeing account number and a wrong password give the identical 401 and leave the store alone |
| Accounts.RegisterThenLogin | Backend/server.js:149-238 | a user who just registered logs in with the stored email and the same password, giving the account number or none |
| Sessions.Refresh | Backend/server.js:246-265 | the store is never changed; a missing token gives 400; a token absent from the store gives 401 whatever its signature; an expired or forged token gives 401; a valid token whose user is gone gives 401 "User not found"; 200 comes exactly when the token is stored, verifies and names an existing user, and carries a new access token for that user |
| Sessions.RemoveFirst | Backend/server.js:270 | `deleteOne` removes one record when the token is stored and nothing otherwise |
| Sessions.RemoveFirstCounts | Backend/server.js:270 | `deleteOne` removes only a record holding the token: every other record keeps its count |
| Sessions.RemoveAll | Backend/server.js:270 | deleting every matching record leaves none holding the token and every other record as often as before |
| Sessions.LogoutAsWritten | Backend/server.js:268-272 | logout always answers `{ ok: true }` and never touches users, payments or the id counter; without a token, or with one no record holds, nothing changes; otherwise exactly one record goes, every record for another token keeps its multiplicity, and no record is added |
| Sessions.Logout | Backend/server.js:268-272 | the corrected logout answers `{ ok: true }`, leaves no record for the token, and keeps users, payments and every other record |
| Sessions.LogoutIdempotent | Backend/server.js:268-272 | logging out twice is logging out once |
| Sessions.LogoutRevokes | Backend/server.js:251-252 | after logout the token is refused with 401 "Invalid refresh token" |
| Sessions.LogoutAsWrittenRevokesSingle | Backend/server.js:251-270 | the `deleteOne` logout revokes as well when the token was stored at most once |
| Sessions.RemoveFirstSingle | Backend/server.js:270 | with at most one matching record, `deleteOne` leaves none |
| Ledger.OwnedBy | Backend/server.js:278 | `find({ userId })` keeps exactly the owner's payments with their multiplicities |
| Ledger.Insert | Backend/server.js:278 | inserting into a newest-first list keeps it newest first and adds exactly that payment |
| Ledger.SortByDateDesc | Backend/server.js:278 | `sort({ date: -1 })` yields a newest-first permutation of its input |
| Ledger.PaymentsOf | Backend/server.js:275-279 | the listing is newest first and contains exactly the owner's payments, each as often as stored |
| Ledger.PaymentsOfIgnoresOthers | Backend/server.js:278 | another user's payment never changes an owner's listing |
| PaymentRoutes.ListPayments | Backend/server.js:275-284 | the gate's 401 passes through; an authenticated caller gets exactly their own payments, newest first; the store is untouched |
| PaymentRoutes.AmountIssues | Backend/server.js:288-295 | the amount validators pass exactly for a finite number above zero; a missing amount fails both |
| PaymentRoutes.CreatePayment | Backend/server.js:297-315 | the gate first, then the amount check with 400 and an unchanged store; on success exactly one payment is appended, owned by the token's user id, with the amount, the current date and the trimmed description |
| PaymentRoutes.CreateThenList | Backend/server.js:275-310 | a created payment appears once more in its owner's listing, and no other user's listing changes |
| Profile.GetMe | Backend/server.js:318-328 | the caller's document without the password hash, or 404 "User not found"; the store is untouched |
| Profile.PatchIssues | Backend/server.js:332-338 | validation passes exactly when a supplied email passes `isEmail` and a supplied password has at least 8 characters, counted as `isLength` counts them (variation selectors excluded) |
| Profile.PatchThenGetMe | Backend/server.js:318-359 | after a successful update, reading the profile back with the same token returns exactly the profile the update answered with |
| Profile.PatchMe | Backend/server.js:340-359 | only the caller's document changes, and in it only the supplied email (normalised) and the supplied password (as a hash); every other field and user is kept; failures leave the store alone |
| Profile.EmptyPatchKeepsStore | Backend/server.js:347-350 | an update with neither field changes nothing |
| Profile.PatchMeCanDuplicateEmail | Backend/server.js:345-350 | the update does not check other users' emails, so it can leave two users sharing one |
| Backend.Handle | Backend/server.js:149-359 | no route lowers the id counter or removes a user; every response is 200, 400, 401 or 404 (logout routed to the corrected `Sessions.Logout`, see Left out) |
| Backend.HandleAsWritten | Backend/server.js:149-359 | the dispatcher with the `deleteOne` logout of server.js:268-272: the same bounds; every answer equals `Handle`'s; the stores differ at most in the refresh records, and only on `/logout` |
| Backend.HandleKeepsIdsFresh | Backend/server.js:164-309 | every route keeps ids below the counter and user ids distinct, under both dispatchers |
| Backend.UsersChangeOnlyThere | Backend/server.js:149-359 | only registration and `PATCH /me` change the users, under both dispatchers |
| Backend.RecordsChangeOnlyThere | Backend/server.js:225-270 | only login and logout change the refresh records, under both dispatchers |
| Backend.RemoveFirstKeepsDuplicate | Backend/server.js:270 | a token stored twice is still stored after `deleteOne` |
| Backend.DuplicateRefreshSurvivesLogout | Backend/server.js:222-270 | two logins in one second store the same refresh token twice, and it still refreshes after the as-written logout |
| Backend.LogoutRevokesDuplicates | Backend/server.js:222-270 | with the corrected logout the same token is refused afterwards |
| Text.TrimStart | src/App.js:45 | only leading white space is removed, and the result does not start with white space |
| Text.TrimEnd | src/App.js:45 | only trailing white space is removed, and the result does not end with white space |
| Text.TrimSlice | src/App.js:45 | `trim` keeps one contiguous slice and drops only white space around it |
| Text.TrimIdempotent | src/App.js:45 | trimming twice is trimming once |
| Text.Split | Backend/server.js:104 | `split(" ")` gives at least one piece, none holding the separator |
| Text.JoinSplit | Backend/server.js:104 | joining the pieces of a split gives the header back |
| Text.SplitJoin | Backend/server.js:104 | splitting a join of separator-free pieces gives the pieces back |
| Text.ValidatorLength | Backend/server.js:135 | `isLength`'s count never exceeds the number of characters |
| Text.ValidatorLengthCounts | Backend/server.js:135 | `isLength`'s count is the number of characters less the occurrences of U+FE0E and U+FE0F |
| Text.ValidatorLengthPlain | Backend/server.js:135 | a string without variation selectors has `isLength` count equal to its length |
| Text.ToLower | src/pages/Details.jsx:14 | lower-casing maps each character and keeps the length |
| Text.ToUpper | src/pages/Details.jsx:74 | upper-casing maps each character and keeps the length |
| Patterns.IndexOf | src/App.js:32 | the first occurrence of a character, or -1 exactly when there is none |
| Patterns.LastIndexOf | src/App.js:32 | the last occurrence of a character, or -1 exactly when there is none |
| Patterns.IsEmailIffShape | src/App.js:32 | the decision procedure accepts exactly the strings with some "@" and final "." split that the email pattern matches |
| Patterns.EmailShapeDecided | src/App.js:32 | any split the pattern could use forces the decision procedure to accept |
| Patterns.IsAmountIffShape | src/App.js:35 | the amount check accepts exactly 1 to 10 digits, optionally followed by "." and 1 or 2 digits |
| Patterns.IsSwiftCodeIffShape | src/App.js:36 | the SWIFT check accepts exactly six upper-case letters, then two upper-case letters or digits, then optionally three more |
| Sanitize.StripTagsChars | src/App.js:42 | markup removal only deletes characters |
| Sanitize.StripTagsTagFree | src/App.js:42 | after markup removal no "<" is followed later by a ">" |
| Sanitize.StripTagsFixed | src/App.js:42 | markup-free text is unchanged by markup removal |
| Sanitize.CleanTagFree | src/App.js:40-45 | the sanitised value contains no "<…>" span |
| Sanitize.CleanIdempotent | src/App.js:40-45 | sanitising twice equals sanitising once |
| Sanitize.CleanKeepsValid | src/App.js:30-45 | a value a whitelist pattern accepts is unchanged by sanitising |
| Sanitize.SetError | src/App.js:50-61 | the field's error is present exactly when the check failed, with the text "Invalid <name> format", and every other field's entry is kept |
| Sanitize.SanitizeInput | src/App.js:40-65 | the value comes back free of `<` and `>`; a field with a pattern has an error entry exactly when the sanitised value fails the pattern, and the entry is that field's message; a field without a pattern leaves the map as it was; no other field's entry appears, disappears or changes |
| Sanitize.SanitizeInputIdempotent | src/App.js:40-65 | sanitising the sanitised value again changes neither the value nor the error map |
| AppForm.Reset | src/App.js:356-390 | both portal toggles clear the errors and empty every field except the currency, which is "ZAR" |
| AppForm.HandleChange | src/App.js:67-71 | the changed field holds the tag-free sanitised value; every other field keeps its value and its error; the changed field's error is present exactly when its pattern fails, with that field's message; the mode is kept |
| AppForm.ReplayKeepsUnedited | src/App.js:67-71 | a field no change event touched keeps its starting value |
| AppForm.UneditedStaysEmpty | src/App.js:16-25 | from a reset form, a field other than currency that nobody edited is still empty |
| AppForm.ErrorsTrackEdits | src/App.js:40-71 | after any run of edits from a reset form, a field has an error exactly when it has a pattern, was edited, and its current value fails the pattern; the error text is the field's message |
| AppForm.HandleRegister | src/App.js:119-147 | employee mode refuses first, then any recorded error refuses; otherwise the four form values are posted |
| AppForm.RegisterSentMatchesEdited | src/App.js:119-147 | after any run of edits from a reset form, `handleRegister` hands the registration over exactly when the form is in customer mode and every edited field that has a pattern matches it |
| AppForm.UntouchedRegisterSent | src/App.js:119-147 | the guard only looks at recorded errors, so if `handleRegister` is called on an untouched customer form it hands over four empty fields |
| AppForm.HandlePayment | src/App.js:205-233 | the amount check comes before the SWIFT check; posting happens exactly when both pass, with the description falling back to "<currency> payment to <swift>" |
| AppForm.PaymentSentShape | src/App.js:205-233 | a posted payment always has a description and an 8- or 11-character SWIFT code, whatever the errors or the mode |
| AppForm.GetStatusBadge | src/App.js:340-348 | the four known statuses map to their labels; any other status is returned unchanged |
| AppForm.BadgeInjective | src/App.js:340-348 | distinct statuses that are not themselves labels get distinct badges |
| AppForm.ActionsOnlyWhenPending | src/App.js:732-749 | the actions are offered exactly for the statuses whose badge is the pending label, except a status spelled as that label itself |
| Guards.FirstFailure | src/pages/Payment.jsx:22-26 | the reference rule: nothing fails exactly when every check passes, and otherwise the message is that of a failing check with every earlier one passing |
| PaymentPage.Initial | src/pages/Payment.jsx:5-12 | the form opens in rand, one of the four offered currencies, over SWIFT, with every text field empty |
| PaymentPage.OnSubmit | src/pages/Payment.jsx:18-30 | a refusal shows exactly one error; a non-positive amount is refused first; otherwise `createPayment` gets the form and the amount |
| PaymentPage.OnSubmitIsFirstFailure | src/pages/Payment.jsx:20-30 | the handler shows the first failing check's message alone (amount, payee, account, BIC, reference), and calls `createPayment` exactly when none fails |
| PaymentPage.NotANumberPasses | src/pages/Payment.jsx:22 | if `onSubmit` is called with an amount that is not a number, the amount check lets it through |
| PaymentPage.SwiftCodeIsBic | src/pages/Payment.jsx:25 | every code the portal's SWIFT pattern accepts is a BIC, and an upper-cased BIC passes that pattern |
| PaymentPage.BicIgnoresCase | src/pages/Payment.jsx:25 | the BIC check ignores letter case |
| RegisterPage.Initial | src/pages/Register.jsx:7-15 | the form opens empty with consent unticked |
| RegisterPage.OnSubmit | src/pages/Register.jsx:24-40 | the success message is cleared, at most one error shows, mismatched passwords show only the mismatch, and `register` gets the form only with no error |
| RegisterPage.OnSubmitIsFirstFailure | src/pages/Register.jsx:26-40 | the handler is the first-failure rule over the mismatch and consent checks, and `register` is called exactly when the passwords agree and consent is given |
| RegisterPage.OnSubmitForgetsEarlier | src/pages/Register.jsx:26-27 | earlier messages never survive a submit |
| RegisterPage.MismatchWins | src/pages/Register.jsx:30-37 | with differing passwords and no consent only the mismatch is reported |
| DetailsPage.Safe | src/pages/Details.jsx:6-11 | null and undefined render the placeholder, a number renders as itself, anything else as its string |
| DetailsPage.SafeInjective | src/pages/Details.jsx:6-11 | `Safe` returns distinct values for distinct present non-boolean inputs; on screen a number and its decimal string still look alike |
| DetailsPage.StatusBadge | src/pages/Details.jsx:13-22 | the text is the status, or "Pending" when it is missing or empty, and never empty; a missing status is pending |
| DetailsPage.StatusBadgeClass | src/pages/Details.jsx:14-20 | the class is the table entry for the lower-cased status: exactly "verified" is verified, "senttoswift" or "sent" is sent, "failed" is failed, and everything else is pending |
| DetailsPage.StatusBadgeIgnoresCase | src/pages/Details.jsx:14-20 | statuses equal up to letter case get the same class |
| DetailsPage.Normalize | src/pages/Details.jsx:44-80 | each shown field is the first truthy of its source fields in order, else its default: id from `_id`, `id`, the route parameter; date from `date`, `createdAt`, `timestamp`, else null; payee, account and BIC likewise, else ""; the amount is `amount` unless null or undefined, then `value`, then null; the currency is the given one upper-cased (no lower-case letter left), else "ZAR"; the provider is the given truthy one, else "SWIFT"; the status is the given non-empty one, else "Pending" |
| DetailsPage.NormalizeIdempotent | src/pages/Details.jsx:44-80 | normalising an already normalised payment shows it unchanged |
| DetailsPage.Load | src/pages/Details.jsx:37-46 | no record shows "Payment not found."; a record shows its normalisation |
| DashboardPage.StatusBadge | src/pages/Dashboard.jsx:5-11 | exactly "Pending", "Verified" and "SentToSWIFT" get their classes, every other string is failed, and the text is the status unchanged |
| DashboardPage.BadgesAgreeOnCanonical | src/pages/Dashboard.jsx:5-11 | on the three spellings the dashboard knows, its badge equals the details page's |
| DashboardPage.BadgesDivergeOnLowerCase | src/pages/Dashboard.jsx:7 | "pending" is failed on the dashboard but pending on the details page |
| Portal.RegisterBody | src/App.js:142-147 | the registration body carries all four fields as strings |
| Portal.ClientValidPassesServer | src/App.js:31-34 | a username, password and account number the client's patterns accept pass the server's validators |
| Portal.EmptyAccountSentRejected | src/App.js:119-147 | if `handleRegister` hands over a registration whose account number is still empty, the server rejects it for both account validators |
| Portal.UntouchedFormRejected | src/App.js:119-147 | if `handleRegister` is called on the untouched customer form, it hands over the empty body and the server rejects its username, password and account number |
| Portal.EmptyAccountRejected | Backend/server.js:141-146 | an empty account number fails both account validators |
| Portal.ZeroAmountPassesClientOnly | src/App.js:209-217 | the amount "0" passes the client's pattern, so `handlePayment` hands it over; the server rejects the number zero as not positive (the `parseFloat` step between them is left to the floating-point line under Left out) |

## Left out

- Express wiring, helmet, cors, rate limiting, the request logger, the root route, the MongoDB connection, the global error handler and `app.listen`: infrastructure with no decision logic.
- The 500 "Server error" answers of every route: they come from database or library exceptions, which the model does not raise.
- jsonwebtoken, bcryptjs, `isEmail` and `normalizeEmail`: foreign libraries, entered as the functions of `Tokens.Services` and constrained only by `Tokens.Sound`.
- Mongo document ids are natural numbers from one counter. `findOne` takes the earliest stored match. `sort({ date: -1 })` is taken as stable. The server does not promise any of these orders.
- `RefreshToken.expiresAt` is stored (`Login` computes it) but never read by any route, so nothing depends on it.
- Floating point: amounts are `JsNumber` values (`Js`), and the text-to-number conversions are parameters, not modelled. This covers `parseFloat`, `Number(...)`, `isFloat` and `toFixed`.
- Text.ToLower: maps only ASCII letters. JavaScript's full Unicode case mapping is not modelled, so the promise that the length is kept holds only for the modelled mapping.
- Text.ToUpper: maps only ASCII letters, so it keeps the length. JavaScript's `toUpperCase` can lengthen a string ("ß" becomes "SS"), and that case is not modelled.
- AppForm.GetStatusBadge: statuses that name an `Object.prototype` property (such as "constructor") are not modelled, because their lookup returns an inherited function.
- The async handlers of the pages (`register`, `createPayment`), `src/mock.js`, `src/pages/Login.jsx` and `src/pages/Account.jsx`: network and storage plumbing outside the pages' own checks. The pages' calls are modelled up to the form they hand over.
- `handleLogin`, `handleLogout`, `fetchPayments`, the saved-token effect and the post-submit resets in `src/App.js`: network calls and React state with no checks of their own.
- React rendering, `alert`, `confirm`, navigation and timers: presentation only.
- HTML constraint validation is not modelled. This covers the `required`, `type="email"`, `type="number"` and `step` attributes on the inputs of src/App.js:416-620 and src/pages/*.jsx. The browser checks them before the submit event, so it never calls a handler on a form that fails them. The handlers are modelled as functions of any form state. So the lemmas about an untouched form, an empty account number or a non-numeric amount say what the handler would do if called; through the browser those forms are stopped first. Entering "0" as the amount satisfies these attributes, because the amount input sets no `min`.
- Backend.Handle: routes `/logout` to the corrected `Sessions.Logout`, which deletes every record holding the token. Backend/server.js:270 deletes only one (`deleteOne`). That code is modelled as written by `Sessions.LogoutAsWritten`, and the difference is the Findings row below. `Backend.HandleAsWritten` is the dispatcher with that logout, and the route invariants (`HandleKeepsIdsFresh`, `UsersChangeOnlyThere`, `RecordsChangeOnlyThere`) are proved for both.
- Request bodies: every body field is a string or absent (`Option<string>`). JSON `null`, numbers, arrays and objects are not modelled. So the model does not cover a body such as `{"accountNumber": null}`, which fails both account validators, or `{"password": null}`, which gives 400 "Missing credentials" at login. Nor does it cover an object such as `{"refreshToken": {"$ne": null}}`, which `findOne`/`deleteOne` read as a query operator matching any record.
- The payment-verification endpoint, the employee listing, roles and payment status: the client calls them, but the backend has no handler or schema field for them.

## Findings

| source | as written | input that shows it | evidently intended | confidence | as-written member | corrected member |
|---|---|---|---|---|---|---|
| Backend/server.js:268-272 | logout deletes one refresh record holding the token (`deleteOne`) | the same user logs in twice within one second, so the two refresh tokens are identical and two records hold it; after logout that token still refreshes | logout revokes the token: no record holding it survives | not executed | Backend.DuplicateRefreshSurvivesLogout | Backend.LogoutRevokesDuplicates |

=== FILE: accounts.dfy ===
/** `POST /register` and `POST /login` (Backend/server.js): request
    validation, the duplicate-email check, user creation, and the login
    decision chain that issues the token pair. */
module Accounts {
  import opened Js
  import opened Text
  import opened Records
  import opened Tokens

  /** The body fields the two routes read; `None` is an absent field. */
  datatype RegisterRequest = RegisterRequest(
    username: Option<string>,
    email: Option<string>,
    password: Option<string>,
    accountNumber: Option<string>)

  /** An absent field as the sanitizers and the length check read it. */
  function FieldText(o: Option<string>): string {
    if o.Some? then o.value else ""
  }

  /** `isAlphanumeric()` with its default locale: one or more ASCII letters
      or digits. */
  predicate IsAlphanumeric(s: string) {
    |s| > 0 && forall i :: 0 <= i < |s| ==> IsAlnum(s[i])
  }

  /** What `registerValidators` demand, field by field; lengths are
      measured as `isLength` measures them. */
  predicate UsernameOk(req: RegisterRequest) { ValidatorLength(Trim(FieldText(req.username))) >= 3 }
  predicate EmailOk(svc: Services, req: RegisterRequest) { svc.isEmail(Trim(FieldText(req.email))) }
  predicate PasswordOk(req: RegisterRequest) { ValidatorLength(FieldText(req.password)) >= 8 }
  predicate AccountCharsOk(req: RegisterRequest) {
    req.accountNumber.Some? ==> IsAlphanumeric(Trim(req.accountNumber.value))
  }
  predicate AccountLengthOk(req: RegisterRequest) {
    req.accountNumber.Some? ==> 4 <= ValidatorLength(Trim(req.accountNumber.value)) <= 20
  }
  predicate AccountOk(req: RegisterRequest) { AccountCharsOk(req) && AccountLengthOk(req) }

  /** The failures `registerValidators` report, in field order; none
      exactly when every field passes, and no failure reported twice. */
  function RegisterIssues(svc: Services, req: RegisterRequest): (issues: seq<Issue>)
    ensures issues == [] <==> UsernameOk(req) && EmailOk(svc, req) && PasswordOk(req) && AccountOk(req)
    ensures forall i, j :: 0 <= i < j < |issues| ==> issues[i] != issues[j]
  {
    Check(UsernameOk(req), UsernameTooShort)
    + Check(EmailOk(svc, req), EmailInvalid)
    + Check(PasswordOk(req), PasswordTooShort)
    + Check(AccountCharsOk(req), AccountNotAlphanumeric)
    + Check(AccountLengthOk(req), AccountLength)
  }

  /** Each failing validator contributes its own entry and a passing one
      none (the chains do not stop at the first failure), so an account
      number that is neither alphanumeric nor of the right length is
      reported twice. */
  lemma RegisterIssuesReport(svc: Services, req: RegisterRequest)
    ensures UsernameTooShort in RegisterIssues(svc, req) <==> !UsernameOk(req)
    ensures EmailInvalid in RegisterIssues(svc, req) <==> !EmailOk(svc, req)
    ensures PasswordTooShort in RegisterIssues(svc, req) <==> !PasswordOk(req)
    ensures AccountNotAlphanumeric in RegisterIssues(svc, req) <==> !AccountCharsOk(req)
    ensures AccountLength in RegisterIssues(svc, req) <==> !AccountLengthOk(req)
    ensures PasswordRequired !in RegisterIssues(svc, req)
  {
    FiveChecks(UsernameOk(req), EmailOk(svc, req), PasswordOk(req), AccountCharsOk(req), AccountLengthOk(req));
  }

  /** A variation selector adds nothing to a length: "ab" followed by
      U+FE0F is two characters long to `isLength`, so it is too short for a
      username although the string holds three code points. */
  lemma VariationSelectorNotCounted(email: Option<string>, password: Option<string>, account: Option<string>)
    ensures !UsernameOk(RegisterRequest(Some("ab\U{FE0F}"), email, password, account))
  {
    var u := "ab\U{FE0F}";
    TrimNoSpace(u);
    assert ValidatorLength(u[2..]) == 0;
    assert ValidatorLength(u[1..]) == 1;
  }

  lemma FiveChecks(p1: bool, p2: bool, p3: bool, p4: bool, p5: bool)
    ensures var issues := Check(p1, UsernameTooShort) + Check(p2, EmailInvalid) + Check(p3, PasswordTooShort)
                          + Check(p4, AccountNotAlphanumeric) + Check(p5, AccountLength);
            && (UsernameTooShort in issues <==> !p1)
            && (EmailInvalid in issues <==> !p2)
            && (PasswordTooShort in issues <==> !p3)
            && (AccountNotAlphanumeric in issues <==> !p4)
            && (AccountLength in issues <==> !p5)
            && PasswordRequired !in issues
  {
  }

  /** The email as stored and as looked up: trimmed, then `normalizeEmail()`. */
  function StoredEmail(svc: Services, req: RegisterRequest): string {
    svc.normalizeEmail(Trim(FieldText(req.email)))
  }

  predicate EmailTaken(users: seq<User>, email: string) {
    exists k :: 0 <= k < |users| && users[k].email == email
  }

  /** The document `User.create` stores: sanitized fields and the hash. */
  function NewUser(svc: Services, req: RegisterRequest, id: UserId, nowMs: nat): User {
    User(
      id,
      Trim(FieldText(req.username)),
      StoredEmail(svc, req),
      svc.hash(FieldText(req.password)),
      if req.accountNumber.Some? then Some(Trim(req.accountNumber.value)) else None,
      nowMs)
  }

  /** `POST /register`. */
  function Register(svc: Services, st: Store, req: RegisterRequest, nowMs: nat): (o: Outcome)
    ensures RegisterIssues(svc, req) != [] ==>
              o == Outcome(st, Rejection(RegisterIssues(svc, req)))
    ensures RegisterIssues(svc, req) == [] && EmailTaken(st.users, StoredEmail(svc, req)) ==>
              o == Outcome(st, Response(400, Message("User already exists")))
    ensures o.response.status == 200 <==>
              RegisterIssues(svc, req) == [] && !EmailTaken(st.users, StoredEmail(svc, req))
    ensures o.response.status != 200 ==> o.store == st
    ensures o.response.status == 200 ==>
              && |o.store.users| == |st.users| + 1
              && o.store.users == st.users + [o.store.users[|st.users|]]
              && o.store.payments == st.payments
              && o.store.refreshTokens == st.refreshTokens
              && o.store.nextId == st.nextId + 1
              && o.response.body == Registered(st.nextId)
    ensures o.response.status == 200 ==>
              var u := o.store.users[|st.users|];
              && u.id == st.nextId
              && u.username == Trim(FieldText(req.username)) && ValidatorLength(u.username) >= 3
              && u.email == StoredEmail(svc, req)
              && u.passwordHash == svc.hash(FieldText(req.password))
              && (u.accountNumber.Some? <==> req.accountNumber.Some?)
              && (u.accountNumber.Some? ==> IsAlphanumeric(u.accountNumber.value) && 4 <= ValidatorLength(u.accountNumber.value) <= 20)
              && u.createdAt == nowMs
  {
    var issues := RegisterIssues(svc, req);
    if issues != [] then Outcome(st, Rejection(issues))
    else if EmailTaken(st.users, StoredEmail(svc, req)) then Outcome(st, Response(400, Message("User already exists")))
    else
      var u := NewUser(svc, req, st.nextId, nowMs);
      Outcome(st.(users := st.users + [u], nextId := st.nextId + 1), Response(200, Registered(st.nextId)))
  }

  /** The password is never stored as given: the new document holds its hash. */
  lemma RegisterStoresHashOnly(svc: Services, st: Store, req: RegisterRequest, nowMs: nat)
    requires Sound(svc)
    requires Register(svc, st, req, nowMs).response.status == 200
    ensures var u := Register(svc, st, req, nowMs).store.users[|st.users|];
            && u.passwordHash != FieldText(req.password)
            && svc.compare(FieldText(req.password), u.passwordHash)
  {
  }

  /** Registration never lets two users share an email. */
  lemma RegisterKeepsEmailsUnique(svc: Services, st: Store, req: RegisterRequest, nowMs: nat)
    requires UniqueEmails(st.users)
    ensures UniqueEmails(Register(svc, st, req, nowMs).store.users)
  {
    var o := Register(svc, st, req, nowMs);
    if o.response.status == 200 {
      var u := o.store.users[|st.users|];
      assert !EmailTaken(st.users, u.email);
      AppendKeepsEmailsUnique(st.users, u);
    }
  }

  lemma AppendKeepsEmailsUnique(users: seq<User>, u: User)
    requires UniqueEmails(users)
    requires !EmailTaken(users, u.email)
    ensures UniqueEmails(users + [u])
  {
    var us := users + [u];
    forall j, k | 0 <= j < k < |us| ensures us[j].email != us[k].email {
      if k == |users| {
        assert us[j] == users[j];
      }
    }
  }

  // ----- POST /login

  datatype LoginRequest = LoginRequest(
    email: Option<string>,
    username: Option<string>,
    password: Option<string>,
    accountNumber: Option<string>)

  /** `{ $or: [{ email: identifier }, { username: identifier }] }` */
  predicate Identifies(u: User, identifier: string) {
    u.email == identifier || u.username == identifier
  }

  /** `User.findOne(...)`: the earliest stored user the filter matches. */
  function FindByIdentifier(users: seq<User>, identifier: string): (r: Option<nat>)
    ensures r.Some? ==> r.value < |users| && Identifies(users[r.value], identifier)
    ensures r.Some? ==> forall k :: 0 <= k < r.value ==> !Identifies(users[k], identifier)
    ensures r.None? ==> forall k :: 0 <= k < |users| ==> !Identifies(users[k], identifier)
  {
    if |users| == 0 then None
    else if Identifies(users[0], identifier) then Some(0)
    else match FindByIdentifier(users[1..], identifier)
      case None => None
      case Some(k) => Some(k + 1)
  }

  /** The account-number check: it only bites when both the request and the
      stored user carry a non-empty one. */
  predicate AccountAgrees(given: Option<string>, stored: Option<string>) {
    !(Present(given) && Present(stored) && stored.value != given.value)
  }

  const MissingCredentials := Response(400, Message("Missing credentials"))
  const InvalidCredentials := Response(401, Message("Invalid credentials"))

  /** The user a login request authenticates as, stated without the order
      of the checks: the first stored user the identifier names, whose
      account number does not disagree, and whose hash the password matches. */
  predicate AuthenticatesAs(svc: Services, users: seq<User>, req: LoginRequest, k: nat) {
    && req.password.Some? && req.password.value != ""
    && Present(OrElse(req.email, req.username))
    && k < |users|
    && Identifies(users[k], OrElse(req.email, req.username).value)
    && (forall j :: 0 <= j < k ==> !Identifies(users[j], OrElse(req.email, req.username).value))
    && AccountAgrees(req.accountNumber, users[k].accountNumber)
    && svc.compare(req.password.value, users[k].passwordHash)
  }

  /** `POST /login`. */
  function Login(svc: Services, st: Store, req: LoginRequest, nowMs: nat): (o: Outcome)
    ensures req.password.None? ==> o == Outcome(st, Rejection([PasswordRequired]))
    ensures req.password.Some? && (!Present(OrElse(req.email, req.username)) || req.password.value == "") ==>
              o == Outcome(st, MissingCredentials)
    ensures o.response.status != 200 ==> o.store == st
    ensures o.response.status == 401 ==> o.response == InvalidCredentials
    ensures o.response.status in {200, 400, 401}
    ensures o.response.status == 200 <==> exists k: nat :: AuthenticatesAs(svc, st.users, req, k)
    ensures forall k: nat :: AuthenticatesAs(svc, st.users, req, k) ==>
              var u := st.users[k];
              && o.store == st.(refreshTokens := st.refreshTokens
                                  + [RefreshRecord(SignRefreshToken(svc, u, nowMs), u.id, nowMs + RefreshRecordLifetime)])
              && o.response == Response(200, LoggedIn(SignAccessToken(svc, u, nowMs), SignRefreshToken(svc, u, nowMs),
                                                      u.id, u.username, u.email))
  {
    if req.password.None? then Outcome(st, Rejection([PasswordRequired]))
    else if !Present(OrElse(req.email, req.username)) || req.password.value == "" then Outcome(st, MissingCredentials)
    else
      var identifier := OrElse(req.email, req.username).value;
      match FindByIdentifier(st.users, identifier)
      case None => Outcome(st, InvalidCredentials)
      case Some(k) =>
        var u := st.users[k];
        if !AccountAgrees(req.accountNumber, u.accountNumber) then Outcome(st, InvalidCredentials)
        else if !svc.compare(req.password.value, u.passwordHash) then Outcome(st, InvalidCredentials)
        else
          var refresh := SignRefreshToken(svc, u, nowMs);
          assert AuthenticatesAs(svc, st.users, req, k);
          Outcome(st.(refreshTokens := st.refreshTokens + [RefreshRecord(refresh, u.id, nowMs + RefreshRecordLifetime)]),
                  Response(200, LoggedIn(SignAccessToken(svc, u, nowMs), refresh, u.id, u.username, u.email)))
  }

  /** Unknown user, disagreeing account number and wrong password cannot be
      told apart from outside: each gives the same 401 and leaves the store
      alone. */
  lemma LoginFailuresAlike(svc: Services, st: Store, req: LoginRequest, nowMs: nat)
    requires req.password.Some? && req.password.value != "" && Present(OrElse(req.email, req.username))
    requires
      var found := FindByIdentifier(st.users, OrElse(req.email, req.username).value);
      || found.None?
      || !AccountAgrees(req.accountNumber, st.users[found.value].accountNumber)
      || !svc.compare(req.password.value, st.users[found.value].passwordHash)
    ensures Login(svc, st, req, nowMs) == Outcome(st, InvalidCredentials)
  {
  }

  /** A user who just registered can log in with the email as stored and
      the same password, giving the account number as stored or none at
      all, unless an older account's username is that very email (the
      lookup matches usernames too and takes the oldest match). */
  lemma RegisterThenLogin(svc: Services, st: Store, req: RegisterRequest, t0: nat, t1: nat, withAccount: bool)
    requires Sound(svc)
    requires Register(svc, st, req, t0).response.status == 200
    requires StoredEmail(svc, req) != ""
    requires forall k :: 0 <= k < |st.users| ==> st.users[k].username != StoredEmail(svc, req)
    ensures
      var st1 := Register(svc, st, req, t0).store;
      var u := st1.users[|st.users|];
      var login := LoginRequest(Some(StoredEmail(svc, req)), None, req.password,
                                if withAccount then u.accountNumber else None);
      Login(svc, st1, login, t1).response
        == Response(200, LoggedIn(SignAccessToken(svc, u, t1), SignRefreshToken(svc, u, t1), u.id, u.username, u.email))
  {
    var st1 := Register(svc, st, req, t0).store;
    var u := st1.users[|st.users|];
    var login := LoginRequest(Some(StoredEmail(svc, req)), None, req.password,
                              if withAccount then u.accountNumber else None);
    assert !EmailTaken(st.users, u.email);
    assert u.passwordHash == svc.hash(FieldText(req.password)) && |FieldText(req.password)| >= 8;
    LoginAsNewest(svc, st.users, u, login);
  }

  /** The newest user authenticates when the identifier names it and no
      older user, and the password is the one whose hash it stores. */
  lemma LoginAsNewest(svc: Services, older: seq<User>, u: User, req: LoginRequest)
    requires Sound(svc)
    requires Present(req.email) && req.email.value == u.email
    requires !EmailTaken(older, u.email)
    requires forall k :: 0 <= k < |older| ==> older[k].username != u.email
    requires req.password.Some? && req.password.value != "" && u.passwordHash == svc.hash(req.password.value)
    requires req.accountNumber == None || req.accountNumber == u.accountNumber
    ensures AuthenticatesAs(svc, older + [u], req, |older|)
  {
    var users := older + [u];
    forall j | 0 <= j < |older| ensures !Identifies(users[j], u.email) {
      assert users[j] == older[j];
    }
  }
}

=== FILE: appform.dfy ===
/** The customer portal's form logic (src/App.js): the form state the two
    portal toggles reset, `handleChange`, the submit guards of
    `handleRegister` and `handlePayment`, `getStatusBadge`, and the rule
    that verify/reject actions appear only on pending payments. */
module AppForm {
  import opened Text
  import opened Patterns
  import opened Sanitize

  /** `isEmployee`, `formData` and `errors`. */
  datatype Form = Form(isEmployee: bool, values: map<Field, string>, errors: map<Field, string>)

  /** Every field has a value. */
  predicate Complete(values: map<Field, string>) {
    forall f: Field :: f in values
  }

  /** The form after either portal toggle: every field empty except the
      currency, which is "ZAR", and no errors. */
  function Reset(isEmployee: bool): (st: Form)
    ensures st.isEmployee == isEmployee && st.errors == map[]
    ensures Complete(st.values)
    ensures st.values[Currency] == "ZAR"
    ensures forall f: Field :: f != Currency ==> st.values[f] == ""
  {
    var values := map[Username := "", Email := "", AccountNumber := "", Password := "",
                       Amount := "", Currency := "ZAR", SwiftCode := "", Description := ""];
    EveryFieldNamed(values);
    Form(isEmployee, values, map[])
  }

  /** A map that names each of the eight fields is complete. */
  lemma EveryFieldNamed(values: map<Field, string>)
    requires Username in values && Email in values && AccountNumber in values && Password in values
    requires Amount in values && Currency in values && SwiftCode in values && Description in values
    ensures Complete(values)
  {
    forall f: Field ensures f in values {
      match f
      case Username =>
      case Email =>
      case AccountNumber =>
      case Password =>
      case Amount =>
      case Currency =>
      case SwiftCode =>
      case Description =>
    }
  }

  /** `handleChange`: the field takes its sanitised value and
      `sanitizeInput` updates the error map; no other field's value or
      error changes. */
  function HandleChange(st: Form, f: Field, value: string): (r: Form)
    ensures r.isEmployee == st.isEmployee
    ensures f in r.values && r.values[f] == Clean(value) && TagFree(r.values[f])
    ensures forall g :: g != f ==> (g in r.values <==> g in st.values)
    ensures forall g :: g != f && g in st.values ==> r.values[g] == st.values[g]
    ensures HasPattern(f) ==> (f in r.errors <==> !Matches(f, r.values[f]))
    ensures HasPattern(f) && f in r.errors ==> r.errors[f] == ErrorText(f)
    ensures !HasPattern(f) ==> r.errors == st.errors
    ensures forall g :: g != f ==> (g in r.errors <==> g in st.errors)
    ensures forall g :: g != f && g in st.errors ==> r.errors[g] == st.errors[g]
  {
    var s := SanitizeInput(f, value, st.errors);
    st.(values := st.values[f := s.value], errors := s.errors)
  }

  /** One keystroke's change event: the field's name and its new value. */
  datatype Edit = Edit(field: Field, text: string)

  /** The form after a run of change events, oldest first. */
  function Replay(st: Form, edits: seq<Edit>): (r: Form)
    ensures r.isEmployee == st.isEmployee
    ensures Complete(st.values) ==> Complete(r.values)
    decreases |edits|
  {
    if |edits| == 0 then st
    else
      var last := edits[|edits| - 1];
      HandleChange(Replay(st, edits[..|edits| - 1]), last.field, last.text)
  }

  /** Some change event touched the field. */
  predicate Edited(edits: seq<Edit>, f: Field) {
    exists k :: 0 <= k < |edits| && edits[k].field == f
  }

  /** The last event touched the field, or an earlier one did. */
  lemma EditedLast(edits: seq<Edit>, f: Field)
    requires |edits| > 0
    ensures Edited(edits, f) <==> Edited(edits[..|edits| - 1], f) || f == edits[|edits| - 1].field
  {
    var prefix := edits[..|edits| - 1];
    if Edited(prefix, f) {
      var k :| 0 <= k < |prefix| && prefix[k].field == f;
      assert edits[k] == prefix[k];
    }
    if Edited(edits, f) && f != edits[|edits| - 1].field {
      var k :| 0 <= k < |edits| && edits[k].field == f;
      assert prefix[k] == edits[k];
    }
  }

  /** A field no change event touched keeps the value it started with. */
  lemma {:induction false} ReplayKeepsUnedited(st: Form, edits: seq<Edit>, f: Field)
    requires Complete(st.values)
    requires forall k :: 0 <= k < |edits| ==> edits[k].field != f
    ensures Replay(st, edits).values[f] == st.values[f]
    decreases |edits|
  {
    if |edits| > 0 {
      var prefix := edits[..|edits| - 1];
      assert forall k :: 0 <= k < |prefix| ==> prefix[k].field != f by {
        forall k | 0 <= k < |prefix| ensures prefix[k].field != f { assert prefix[k] == edits[k]; }
      }
      ReplayKeepsUnedited(st, prefix, f);
      OtherFieldKept(st, edits, f);
    }
  }

  lemma OtherFieldKept(st: Form, edits: seq<Edit>, f: Field)
    requires |edits| > 0 && Complete(st.values)
    requires f != edits[|edits| - 1].field
    ensures Replay(st, edits).values[f] == Replay(st, edits[..|edits| - 1]).values[f]
  {
    var prev := Replay(st, edits[..|edits| - 1]);
    var e := edits[|edits| - 1];
    assert Replay(st, edits) == HandleChange(prev, e.field, e.text);
  }

  /** From a reset customer form, a field nobody edited is still empty
      (the currency aside). */
  lemma UneditedStaysEmpty(isEmployee: bool, edits: seq<Edit>, f: Field)
    requires f != Currency
    requires forall k :: 0 <= k < |edits| ==> edits[k].field != f
    ensures Replay(Reset(isEmployee), edits).values[f] == ""
  {
    ReplayKeepsUnedited(Reset(isEmployee), edits, f);
  }

  /** What the error map means after a run of edits: exactly the edited
      fields that have a pattern and whose current value fails it carry an
      error, and each carries "Invalid <name> format". */
  predicate Tracks(values: map<Field, string>, errors: map<Field, string>, edits: seq<Edit>) {
    && Complete(values)
    && (forall f :: f in errors <==> HasPattern(f) && Edited(edits, f) && !Matches(f, values[f]))
    && (forall f :: f in errors ==> errors[f] == ErrorText(f))
  }

  predicate ErrorsTrack(st: Form, edits: seq<Edit>) {
    Tracks(st.values, st.errors, edits)
  }

  /** The meaning survives one more event, whose field takes the value `v`
      and whose error entry is set as `sanitizeInput` sets it. */
  lemma TrackStep(values: map<Field, string>, errors: map<Field, string>, edits: seq<Edit>, v: string,
                  next: map<Field, string>)
    requires |edits| > 0 && Tracks(values, errors, edits[..|edits| - 1])
    requires HasPattern(edits[|edits| - 1].field) ==>
               next == SetError(edits[|edits| - 1].field, !Matches(edits[|edits| - 1].field, v), errors)
    requires !HasPattern(edits[|edits| - 1].field) ==> next == errors
    ensures Tracks(values[edits[|edits| - 1].field := v], next, edits)
  {
    var g := edits[|edits| - 1].field;
    var after := values[g := v];
    forall f ensures f in next <==> HasPattern(f) && Edited(edits, f) && !Matches(f, after[f]) {
      EditedLast(edits, f);
    }
  }

  /** One change event keeps the error map tracking the edits. */
  lemma ChangeKeepsTracking(prev: Form, edits: seq<Edit>)
    requires |edits| > 0 && ErrorsTrack(prev, edits[..|edits| - 1])
    ensures ErrorsTrack(HandleChange(prev, edits[|edits| - 1].field, edits[|edits| - 1].text), edits)
  {
    var e := edits[|edits| - 1];
    var s := SanitizeInput(e.field, e.text, prev.errors);
    TrackStep(prev.values, prev.errors, edits, s.value, s.errors);
  }

  lemma {:induction false} ErrorsTrackEdits(isEmployee: bool, edits: seq<Edit>)
    ensures ErrorsTrack(Replay(Reset(isEmployee), edits), edits)
    decreases |edits|
  {
    if |edits| > 0 {
      var prefix := edits[..|edits| - 1];
      var e := edits[|edits| - 1];
      ErrorsTrackEdits(isEmployee, prefix);
      var prev := Replay(Reset(isEmployee), prefix);
      ChangeKeepsTracking(prev, edits);
      assert Replay(Reset(isEmployee), edits) == HandleChange(prev, e.field, e.text);
    }
  }

  /** What `handleRegister` does: refuse with an alert, or post the four
      fields. */
  datatype RegisterStep = RegisterRefused(alert: string) | RegisterSent(username: string, email: string, password: string, accountNumber: string)

  const EmployeeAlert := "Employees cannot self-register. Contact system administrator."
  const FixErrorsAlert := "Please fix form errors before submitting"

  /** `handleRegister`: employee mode refuses first, then any recorded
      field error refuses; otherwise the form's values are posted. */
  function HandleRegister(st: Form): (r: RegisterStep)
    requires Complete(st.values)
    ensures st.isEmployee ==> r == RegisterRefused(EmployeeAlert)
    ensures !st.isEmployee && |st.errors| > 0 ==> r == RegisterRefused(FixErrorsAlert)
    ensures r.RegisterSent? <==> !st.isEmployee && |st.errors| == 0
    ensures r.RegisterSent? ==>
              r == RegisterSent(st.values[Username], st.values[Email], st.values[Password], st.values[AccountNumber])
  {
    if st.isEmployee then RegisterRefused(EmployeeAlert)
    else if |st.errors| > 0 then RegisterRefused(FixErrorsAlert)
    else RegisterSent(st.values[Username], st.values[Email], st.values[Password], st.values[AccountNumber])
  }

  /** When `handleRegister` runs after any run of edits, it hands the
      registration over exactly when the form is in customer mode and every
      field the user edited that has a pattern matches it. */
  lemma RegisterSentMatchesEdited(isEmployee: bool, edits: seq<Edit>)
    ensures HandleRegister(Replay(Reset(isEmployee), edits)).RegisterSent? <==>
              !isEmployee && forall f :: HasPattern(f) && Edited(edits, f) ==> Matches(f, Replay(Reset(isEmployee), edits).values[f])
  {
    var st := Replay(Reset(isEmployee), edits);
    ErrorsTrackEdits(isEmployee, edits);
    if |st.errors| > 0 {
      var f :| f in st.errors;
      assert HasPattern(f) && Edited(edits, f) && !Matches(f, st.values[f]);
    } else {
      forall f | HasPattern(f) && Edited(edits, f) ensures Matches(f, st.values[f]) {
        assert f !in st.errors;
      }
    }
  }

  /** The guard looks only at recorded errors, so if `handleRegister` is
      called on an untouched customer form it hands over the empty fields.
      In the browser the inputs' `required` attributes stop that submit
      before `handleRegister` runs. */
  lemma UntouchedRegisterSent()
    ensures HandleRegister(Reset(false)) == RegisterSent("", "", "", "")
  {
  }

  /** What `handlePayment` does: refuse with an alert, or post the payment. */
  datatype PaymentStep = PaymentRefused(alert: string) | PaymentSent(amount: string, description: string, swiftCode: string, currency: string)

  const AmountAlert := "Invalid amount format"
  const SwiftAlert := "Invalid SWIFT code format (e.g., ABCDEF2A)"

  /** `handlePayment`: the amount pattern is checked first, then the SWIFT
      pattern; a posted payment without a description gets
      "<currency> payment to <swiftCode>". */
  function HandlePayment(st: Form): (r: PaymentStep)
    requires Complete(st.values)
    ensures !IsAmount(st.values[Amount]) ==> r == PaymentRefused(AmountAlert)
    ensures IsAmount(st.values[Amount]) && !IsSwiftCode(st.values[SwiftCode]) ==> r == PaymentRefused(SwiftAlert)
    ensures r.PaymentSent? <==> IsAmount(st.values[Amount]) && IsSwiftCode(st.values[SwiftCode])
    ensures r.PaymentSent? ==>
              && r.amount == st.values[Amount]
              && r.swiftCode == st.values[SwiftCode]
              && r.currency == st.values[Currency]
              && (st.values[Description] != "" ==> r.description == st.values[Description])
              && (st.values[Description] == "" ==>
                    r.description == st.values[Currency] + " payment to " + st.values[SwiftCode])
  {
    if !IsAmount(st.values[Amount]) then PaymentRefused(AmountAlert)
    else if !IsSwiftCode(st.values[SwiftCode]) then PaymentRefused(SwiftAlert)
    else
      var description := if st.values[Description] != "" then st.values[Description]
                         else st.values[Currency] + " payment to " + st.values[SwiftCode];
      PaymentSent(st.values[Amount], description, st.values[SwiftCode], st.values[Currency])
  }

  /** A posted payment always has a description, and its SWIFT code is 8 or
      11 characters; the payment guard ignores the error map and the mode. */
  lemma PaymentSentShape(st: Form, errors: map<Field, string>, isEmployee: bool)
    requires Complete(st.values)
    requires HandlePayment(st).PaymentSent?
    ensures HandlePayment(st).description != ""
    ensures |HandlePayment(st).swiftCode| == 8 || |HandlePayment(st).swiftCode| == 11
    ensures HandlePayment(st.(errors := errors, isEmployee := isEmployee)) == HandlePayment(st)
  {
  }

  // ----- getStatusBadge and the pending-only actions

  const PendingLabel := "\U{F8FF}\U{00FC}\U{00FC}\U{00B0} Pending"
  const VerifiedLabel := "\U{F8FF}\U{00FC}\U{00FC}\U{00A2} Verified"
  const RejectedLabel := "\U{F8FF}\U{00FC}\U{00EE}\U{00A5} Rejected"
  const SubmittedLabel := "\U{201A}\U{00FA}\U{00D6} Submitted to SWIFT"

  /** The four statuses the badge table knows. */
  predicate KnownStatus(status: string) {
    status == "pending" || status == "verified" || status == "rejected" || status == "submitted"
  }

  /** `getStatusBadge`: `badges[status] || status`. */
  function GetStatusBadge(status: string): (r: string)
    ensures status == "pending" ==> r == PendingLabel
    ensures status == "verified" ==> r == VerifiedLabel
    ensures status == "rejected" ==> r == RejectedLabel
    ensures status == "submitted" ==> r == SubmittedLabel
    ensures !KnownStatus(status) ==> r == status
  {
    if status == "pending" then PendingLabel
    else if status == "verified" then VerifiedLabel
    else if status == "rejected" then RejectedLabel
    else if status == "submitted" then SubmittedLabel
    else status
  }

  /** Distinct statuses get distinct badges, as long as no status is itself
      one of the four labels. */
  lemma BadgeInjective(s1: string, s2: string)
    requires s1 !in {PendingLabel, VerifiedLabel, RejectedLabel, SubmittedLabel}
    requires s2 !in {PendingLabel, VerifiedLabel, RejectedLabel, SubmittedLabel}
    requires GetStatusBadge(s1) == GetStatusBadge(s2)
    ensures s1 == s2
  {
    LabelsDistinct();
  }

  lemma LabelsDistinct()
    ensures PendingLabel != VerifiedLabel && PendingLabel != RejectedLabel && PendingLabel != SubmittedLabel
    ensures VerifiedLabel != RejectedLabel && VerifiedLabel != SubmittedLabel && RejectedLabel != SubmittedLabel
  {
    assert PendingLabel[3] != VerifiedLabel[3];
    assert PendingLabel[2] != RejectedLabel[2] && VerifiedLabel[2] != RejectedLabel[2];
    assert PendingLabel[0] != SubmittedLabel[0] && VerifiedLabel[0] != SubmittedLabel[0];
    assert RejectedLabel[0] != SubmittedLabel[0];
  }

  /** Verify and reject buttons are rendered for `status === 'pending'` only. */
  predicate ActionsOffered(status: string) {
    status == "pending"
  }

  /** The actions are offered exactly for the payments whose badge is the
      pending label, a status spelled as that label itself aside. */
  lemma ActionsOnlyWhenPending(status: string)
    ensures ActionsOffered(status) <==> GetStatusBadge(status) == PendingLabel && status != PendingLabel
  {
    LabelsDistinct();
  }
}

=== FILE: backend.dfy ===
/** The backend as one transition function over the store (Backend/server.js
    routes), the invariants every route keeps, and the refresh-token
    scenario that shows why logout must delete every matching record. */
module Backend {
  import opened Js
  import opened Records
  import opened Tokens
  import opened Gate
  import opened Accounts
  import opened Sessions
  import opened PaymentRoutes
  import opened Profile

  /** One request to one route; the header fields carry `Authorization`. */
  datatype Request =
    | RegisterCall(register: RegisterRequest)
    | LoginCall(login: LoginRequest)
    | RefreshCall(refreshToken: Option<string>)
    | LogoutCall(logoutToken: Option<string>)
    | ListPaymentsCall(listHeader: Option<string>)
    | CreatePaymentCall(createHeader: Option<string>, payment: PaymentRequest)
    | GetMeCall(meHeader: Option<string>)
    | PatchMeCall(patchHeader: Option<string>, patch: PatchRequest)

  /** Route a request to its handler (logout with every matching record
      deleted). */
  function Handle(svc: Services, st: Store, req: Request, nowMs: nat): (o: Outcome)
    ensures o.store.nextId >= st.nextId
    ensures |o.store.users| >= |st.users|
    ensures o.response.status in {200, 400, 401, 404}
  {
    match req
    case RegisterCall(r) => Register(svc, st, r, nowMs)
    case LoginCall(r) => Login(svc, st, r, nowMs)
    case RefreshCall(t) => Refresh(svc, st, t, nowMs)
    case LogoutCall(t) => Logout(st, t)
    case ListPaymentsCall(h) => ListPayments(svc, st, h, nowMs)
    case CreatePaymentCall(h, p) => CreatePayment(svc, st, h, p, nowMs)
    case GetMeCall(h) => GetMe(svc, st, h, nowMs)
    case PatchMeCall(h, p) => PatchMe(svc, st, h, p, nowMs)
  }

  /** The dispatcher as the server runs it: `/logout` deletes one matching
      record. It answers every request as `Handle` does, and the two stores
      differ at most in the refresh records a logout leaves behind. */
  function HandleAsWritten(svc: Services, st: Store, req: Request, nowMs: nat): (o: Outcome)
    ensures o.store.nextId >= st.nextId
    ensures |o.store.users| >= |st.users|
    ensures o.response.status in {200, 400, 401, 404}
    ensures o.response == Handle(svc, st, req, nowMs).response
    ensures o.store.(refreshTokens := []) == Handle(svc, st, req, nowMs).store.(refreshTokens := [])
    ensures !req.LogoutCall? ==> o == Handle(svc, st, req, nowMs)
  {
    match req
    case LogoutCall(t) => LogoutAsWritten(st, t)
    case _ => Handle(svc, st, req, nowMs)
  }

  /** Every route keeps document ids below the counter and user ids
      distinct, under either logout. */
  lemma HandleKeepsIdsFresh(svc: Services, st: Store, req: Request, nowMs: nat)
    requires IdsFresh(st)
    ensures IdsFresh(Handle(svc, st, req, nowMs).store)
    ensures IdsFresh(HandleAsWritten(svc, st, req, nowMs).store)
  {
    match req
    case RegisterCall(r) => RegisterKeepsIdsFresh(svc, st, r, nowMs);
    case CreatePaymentCall(h, p) => CreatePaymentKeepsIdsFresh(svc, st, h, p, nowMs);
    case PatchMeCall(h, p) => PatchMeKeepsIdsFresh(svc, st, h, p, nowMs);
    case _ =>
  }

  lemma RegisterKeepsIdsFresh(svc: Services, st: Store, r: RegisterRequest, nowMs: nat)
    requires IdsFresh(st)
    ensures IdsFresh(Register(svc, st, r, nowMs).store)
  {
    var o := Register(svc, st, r, nowMs);
    if o.response.status == 200 {
      var u := o.store.users[|st.users|];
      assert o.store == st.(users := st.users + [u], nextId := st.nextId + 1);
      AddUserKeepsIdsFresh(st, u);
    }
  }

  /** A user stamped with the counter's value can join, the counter moving on. */
  lemma AddUserKeepsIdsFresh(st: Store, u: User)
    requires IdsFresh(st) && u.id == st.nextId
    ensures IdsFresh(st.(users := st.users + [u], nextId := st.nextId + 1))
  {
    var us := st.users + [u];
    forall j, k | 0 <= j < k < |us| ensures us[j].id != us[k].id {
      if k == |st.users| { assert us[j] == st.users[j]; }
      else { assert us[j] == st.users[j] && us[k] == st.users[k]; }
    }
    forall k | 0 <= k < |us| ensures us[k].id < st.nextId + 1 {
      if k < |st.users| { assert us[k] == st.users[k]; }
    }
  }

  lemma CreatePaymentKeepsIdsFresh(svc: Services, st: Store, h: Option<string>, p: PaymentRequest, nowMs: nat)
    requires IdsFresh(st)
    ensures IdsFresh(CreatePayment(svc, st, h, p, nowMs).store)
  {
    var o := CreatePayment(svc, st, h, p, nowMs);
    if o.response.status == 200 {
      var ps := o.store.payments;
      forall k | 0 <= k < |ps| ensures ps[k].id < o.store.nextId {
        if k < |st.payments| { assert ps[k] == st.payments[k]; }
      }
    }
  }

  lemma PatchMeKeepsIdsFresh(svc: Services, st: Store, h: Option<string>, p: PatchRequest, nowMs: nat)
    requires IdsFresh(st)
    ensures IdsFresh(PatchMe(svc, st, h, p, nowMs).store)
  {
    var o := PatchMe(svc, st, h, p, nowMs);
    if o.response.status == 200 {
      var us := o.store.users;
      assert forall j :: 0 <= j < |us| ==> us[j].id == st.users[j].id;
    }
  }

  /** Registration is the only route that adds users; only registration and
      `PATCH /me` change them. */
  lemma UsersChangeOnlyThere(svc: Services, st: Store, req: Request, nowMs: nat)
    requires !req.RegisterCall? && !req.PatchMeCall?
    ensures Handle(svc, st, req, nowMs).store.users == st.users
    ensures HandleAsWritten(svc, st, req, nowMs).store.users == st.users
  {
  }

  /** Only a successful login adds a refresh record and only logout
      removes one; every other route leaves the records alone. */
  lemma RecordsChangeOnlyThere(svc: Services, st: Store, req: Request, nowMs: nat)
    requires !req.LoginCall? && !req.LogoutCall?
    ensures Handle(svc, st, req, nowMs).store.refreshTokens == st.refreshTokens
    ensures HandleAsWritten(svc, st, req, nowMs).store.refreshTokens == st.refreshTokens
  {
  }

  /** A record whose token appears at two positions survives deleting the
      first one. */
  lemma {:induction false} RemoveFirstKeepsDuplicate(rs: seq<RefreshRecord>, token: string, i: nat, j: nat)
    requires i < j < |rs| && rs[i].token == token && rs[j].token == token
    ensures Stored(RemoveFirst(rs, token), token)
  {
    if rs[0].token == token {
      assert rs[1..][j - 1] == rs[j];
    } else {
      assert rs[1..][i - 1] == rs[i] && rs[1..][j - 1] == rs[j];
      RemoveFirstKeepsDuplicate(rs[1..], token, i - 1, j - 1);
      var r := RemoveFirst(rs[1..], token);
      var k :| 0 <= k < |r| && r[k].token == token;
      assert ([rs[0]] + r)[k + 1] == r[k];
    }
  }

  /** The same user logging in twice within one second receives the same
      refresh token twice (signing is deterministic and `iat` counts whole
      seconds), so two records hold it. `deleteOne` at logout removes one,
      and the token still refreshes afterwards. */
  lemma DuplicateRefreshSurvivesLogout(svc: Services, st: Store, req: LoginRequest, t1: nat, t2: nat, now: nat)
    requires Sound(svc)
    requires Login(svc, st, req, t1).response.status == 200
    requires Seconds(t1) == Seconds(t2)
    requires Seconds(now) < Seconds(t1) + RefreshLifetime
    ensures
      var first := Login(svc, st, req, t1);
      var second := Login(svc, first.store, req, t2);
      var token := first.response.body.refreshToken;
      && second.response.body.refreshToken == token
      && Refresh(svc, LogoutAsWritten(second.store, Some(token)).store, Some(token), now).response.status == 200
  {
    var first := Login(svc, st, req, t1);
    var k: nat :| AuthenticatesAs(svc, st.users, req, k);
    var u := st.users[k];
    var token := SignRefreshToken(svc, u, t1);
    assert RefreshJwt(u, t1) == RefreshJwt(u, t2);
    assert first.store.users == st.users;
    var second := Login(svc, first.store, req, t2);
    var rs := second.store.refreshTokens;
    var n := |st.refreshTokens|;
    assert rs[n].token == token && rs[n + 1].token == token;
    RemoveFirstKeepsDuplicate(rs, token, n, n + 1);
    RefreshTokenLifetime(svc, u, t1, now);
    assert UserIndex(st.users, u.id).Some?;
  }

  /** With the corrected logout the same sequence leaves a token that no
      longer refreshes: logout revokes, however many records hold it. */
  lemma LogoutRevokesDuplicates(svc: Services, st: Store, req: LoginRequest, t1: nat, t2: nat, now: nat)
    requires Sound(svc)
    requires Login(svc, st, req, t1).response.status == 200
    ensures
      var first := Login(svc, st, req, t1);
      var second := Login(svc, first.store, req, t2);
      var token := first.response.body.refreshToken;
      Refresh(svc, Logout(second.store, Some(token)).store, Some(token), now).response == UnknownRefresh
  {
    var first := Login(svc, st, req, t1);
    var k: nat :| AuthenticatesAs(svc, st.users, req, k);
    var token := first.response.body.refreshToken;
    assert token == SignRefreshToken(svc, st.users[k], t1);
    var second := Login(svc, first.store, req, t2);
    LogoutRevokes(svc, second.store, token, now);
  }
}

=== FILE: dashboard_page.dfy ===
/** The dashboard's status badge (src/pages/Dashboard.jsx), which matches
    statuses exactly, set against the details page's case-insensitive one. */
module DashboardPage {
  import opened Js
  import opened Text
  import DetailsPage

  /** `StatusBadge` on the dashboard: three exact spellings have their own
      class, every other status is shown as failed; the text is the status
      unchanged. */
  function StatusBadge(s: string): (b: DetailsPage.Badge)
    ensures b.text == s
    ensures b.cls == DetailsPage.PendingClass <==> s == "Pending"
    ensures b.cls == DetailsPage.VerifiedClass <==> s == "Verified"
    ensures b.cls == DetailsPage.SentClass <==> s == "SentToSWIFT"
    ensures b.cls == DetailsPage.FailedClass <==> s !in {"Pending", "Verified", "SentToSWIFT"}
  {
    var cls := if s == "Pending" then DetailsPage.PendingClass
               else if s == "Verified" then DetailsPage.VerifiedClass
               else if s == "SentToSWIFT" then DetailsPage.SentClass
               else DetailsPage.FailedClass;
    DetailsPage.Badge(cls, s)
  }

  /** The two pages agree on the three spellings the dashboard knows. */
  lemma BadgesAgreeOnCanonical(s: string)
    requires s == "Pending" || s == "Verified" || s == "SentToSWIFT"
    ensures StatusBadge(s) == DetailsPage.StatusBadge(Some(s))
  {
    if s == "Pending" {
      LowerIs("Pending", "pending");
      DetailsPage.StatusBadgeClass("Pending");
    } else if s == "Verified" {
      LowerIs("Verified", "verified");
      DetailsPage.StatusBadgeClass("Verified");
    } else {
      LowerIs("SentToSWIFT", "senttoswift");
      DetailsPage.StatusBadgeClass("SentToSWIFT");
    }
  }

  lemma LowerIs(s: string, t: string)
    requires |s| == |t| && forall i :: 0 <= i < |s| ==> LowerChar(s[i]) == t[i]
    ensures ToLower(s) == t
  {
  }

  /** They disagree on any other casing: "pending" is a failed payment on the
      dashboard and a pending one on the details page. */
  lemma BadgesDivergeOnLowerCase()
    ensures StatusBadge("pending").cls == DetailsPage.FailedClass
    ensures DetailsPage.StatusBadge(Some("pending")).cls == DetailsPage.PendingClass
  {
    DetailsPage.StatusBadgeClass("pending");
    assert ToLower("pending") == "pending";
  }
}

=== FILE: details_page.dfy ===
/** The payment details page (src/pages/Details.jsx): how a fetched payment
    record, whose fields may be missing or named differently, is normalised
    for display; `Safe` for optional values; and the page's status badge. */
module DetailsPage {
  import opened Js
  import opened Text

  /** What `Safe` renders: a muted dash, a number as it is, or text. */
  datatype Rendered = Placeholder | NumberShown(n: JsNumber) | TextShown(text: string)

  /** `Safe`: null and undefined show the placeholder, a number is shown as
      it is, anything else as `String(val)`. */
  function Safe(v: JsValue): (r: Rendered)
    ensures r.Placeholder? <==> v == Undefined || v == Null
    ensures r.NumberShown? <==> v.Number?
    ensures v.Number? ==> r.n == v.n
    ensures v.Str? ==> r == TextShown(v.s)
    ensures v.Bool? ==> r == TextShown(if v.b then "true" else "false")
  {
    match v
    case Undefined => Placeholder
    case Null => Placeholder
    case Number(n) => NumberShown(n)
    case Bool(b) => TextShown(if b then "true" else "false")
    case Str(s) => TextShown(s)
  }

  /** `Safe` returns distinct values for distinct present inputs, booleans
      aside (they become the strings "true" and "false"). This is about the
      values `Safe` returns, not the screen: React shows the number 5 and the
      string "5" as the same text, and likewise NaN and "NaN". */
  lemma SafeInjective(a: JsValue, b: JsValue)
    requires !a.Bool? && !b.Bool?
    requires a != Undefined && a != Null && b != Undefined && b != Null
    requires Safe(a) == Safe(b)
    ensures a == b
  {
  }

  // ----- the status badge

  /** The four CSS classes a badge can carry. */
  datatype BadgeClass = PendingClass | VerifiedClass | SentClass | FailedClass

  function ClassName(c: BadgeClass): string {
    match c
    case PendingClass => "pending"
    case VerifiedClass => "verified"
    case SentClass => "sent"
    case FailedClass => "failed"
  }

  datatype Badge = Badge(cls: BadgeClass, text: string)

  /** `StatusBadge` on this page: the class comes from the lower-cased status,
      anything unrecognised (the empty status included) counting as pending;
      the text is the status itself, or "Pending" when it is missing or
      empty. */
  function StatusBadge(s: Option<string>): (b: Badge)
    ensures b.text == (if Present(s) then s.value else "Pending") && b.text != ""
    ensures !Present(s) ==> b.cls == PendingClass
  {
    var st := ToLower(if Present(s) then s.value else "");
    var cls := if st == "pending" then PendingClass
               else if st == "verified" then VerifiedClass
               else if st == "senttoswift" || st == "sent" then SentClass
               else if st == "failed" then FailedClass
               else PendingClass;
    Badge(cls, if Present(s) then s.value else "Pending")
  }

  /** The class as a table over lower-cased statuses. */
  function ClassOfLower(st: string): BadgeClass {
    if st == "verified" then VerifiedClass
    else if st == "senttoswift" || st == "sent" then SentClass
    else if st == "failed" then FailedClass
    else PendingClass
  }

  /** The class of a badge is the table entry for its status in lower case,
      and each non-pending class is reached by exactly the statuses listed. */
  lemma StatusBadgeClass(s: string)
    ensures StatusBadge(Some(s)).cls == ClassOfLower(ToLower(s))
    ensures StatusBadge(Some(s)).cls == VerifiedClass <==> ToLower(s) == "verified"
    ensures StatusBadge(Some(s)).cls == SentClass <==> ToLower(s) == "senttoswift" || ToLower(s) == "sent"
    ensures StatusBadge(Some(s)).cls == FailedClass <==> ToLower(s) == "failed"
  {
    if s == "" { assert ToLower(s) == ""; }
  }

  /** Letter case never changes the class. */
  lemma StatusBadgeIgnoresCase(a: string, b: string)
    requires ToLower(a) == ToLower(b)
    ensures StatusBadge(Some(a)).cls == StatusBadge(Some(b)).cls
  {
    StatusBadgeClass(a);
    StatusBadgeClass(b);
  }

  // ----- normalisation of a fetched payment

  /** A payment record as fetched: every field the page reads, under each
      name it tries. */
  datatype Fetched = Fetched(
    underscoreId: JsValue, id: JsValue,
    date: JsValue, createdAt: JsValue, timestamp: JsValue,
    amount: JsValue, value: JsValue,
    currency: Option<string>, provider: JsValue,
    payeeName: JsValue, payee: JsValue,
    payeeAccountNumber: JsValue, payeeAccount: JsValue, account: JsValue,
    swiftBic: JsValue, swift: JsValue,
    reference: JsValue, status: Option<string>)

  /** What the page shows for a payment. */
  datatype Shown = Shown(id: JsValue, date: JsValue, amount: JsValue, currency: string, provider: JsValue,
                         payeeName: JsValue, payeeAccountNumber: JsValue, swiftBic: JsValue,
                         reference: JsValue, status: string)

  /** The normalised id and the page's getters: `||` chains fall through
      falsy values, the amount's `??` chain only through null and
      undefined. */
  function Normalize(p: Fetched, route: string): (r: Shown)
    ensures r.id == (if Truthy(p.underscoreId) then p.underscoreId else if Truthy(p.id) then p.id else Str(route))
    ensures Truthy(r.date) || r.date == Null
    ensures Truthy(p.date) ==> r.date == p.date
    ensures !Truthy(p.date) && Truthy(p.createdAt) ==> r.date == p.createdAt
    ensures !Truthy(p.date) && !Truthy(p.createdAt) && Truthy(p.timestamp) ==> r.date == p.timestamp
    ensures !Truthy(p.date) && !Truthy(p.createdAt) && !Truthy(p.timestamp) ==> r.date == Null
    ensures p.amount != Null && p.amount != Undefined ==> r.amount == p.amount
    ensures (p.amount == Null || p.amount == Undefined) && p.value != Null && p.value != Undefined ==>
              r.amount == p.value
    ensures r.amount == Null <==> (p.amount == Null || p.amount == Undefined) && (p.value == Null || p.value == Undefined)
    ensures r.currency != "" && forall i :: 0 <= i < |r.currency| ==> !IsLower(r.currency[i])
    ensures Present(p.currency) ==> r.currency == ToUpper(p.currency.value)
    ensures !Present(p.currency) ==> r.currency == "ZAR"
    ensures Truthy(r.provider)
    ensures Truthy(p.provider) ==> r.provider == p.provider
    ensures !Truthy(p.provider) ==> r.provider == Str("SWIFT")
    ensures Truthy(p.payeeName) ==> r.payeeName == p.payeeName
    ensures !Truthy(p.payeeName) ==> r.payeeName == (if Truthy(p.payee) then p.payee else Str(""))
    ensures Truthy(p.payeeAccountNumber) ==> r.payeeAccountNumber == p.payeeAccountNumber
    ensures !Truthy(p.payeeAccountNumber) && Truthy(p.payeeAccount) ==> r.payeeAccountNumber == p.payeeAccount
    ensures !Truthy(p.payeeAccountNumber) && !Truthy(p.payeeAccount) ==>
              r.payeeAccountNumber == (if Truthy(p.account) then p.account else Str(""))
    ensures Truthy(p.swiftBic) ==> r.swiftBic == p.swiftBic
    ensures !Truthy(p.swiftBic) ==> r.swiftBic == (if Truthy(p.swift) then p.swift else Str(""))
    ensures r.reference == (if Truthy(p.reference) then p.reference else Str(""))
    ensures r.status != ""
    ensures Present(p.status) ==> r.status == p.status.value
    ensures !Present(p.status) ==> r.status == "Pending"
  {
    Shown(
      Or(Or(p.underscoreId, p.id), Str(route)),
      Or(Or(Or(p.date, p.createdAt), p.timestamp), Null),
      Coalesce(Coalesce(p.amount, p.value), Null),
      if Present(p.currency) then ToUpper(p.currency.value) else "ZAR",
      Or(p.provider, Str("SWIFT")),
      Or(Or(p.payeeName, p.payee), Str("")),
      Or(Or(Or(p.payeeAccountNumber, p.payeeAccount), p.account), Str("")),
      Or(Or(p.swiftBic, p.swift), Str("")),
      Or(p.reference, Str("")),
      OrDefault(p.status, "Pending"))
  }

  /** A shown payment read back as a record under the primary field names. */
  function AsFetched(s: Shown): Fetched {
    Fetched(Undefined, s.id, s.date, Undefined, Undefined, s.amount, Undefined,
            Some(s.currency), s.provider, s.payeeName, Undefined,
            s.payeeAccountNumber, Undefined, Undefined, s.swiftBic, Undefined,
            s.reference, Some(s.status))
  }

  lemma ToUpperIdempotent(s: string)
    ensures ToUpper(ToUpper(s)) == ToUpper(s)
  {
  }

  /** Normalisation is a fixed point: a page showing an already normalised
      payment shows it unchanged. The route parameter is never empty. */
  lemma NormalizeIdempotent(p: Fetched, route: string)
    requires route != ""
    ensures Normalize(AsFetched(Normalize(p, route)), route) == Normalize(p, route)
  {
    var once := Normalize(p, route);
    if Present(p.currency) {
      ToUpperIdempotent(p.currency.value);
    }
  }

  /** Loading the page: no record shows the not-found error. */
  datatype View = NotFound(message: string) | Showing(payment: Shown)

  function Load(p: Option<Fetched>, route: string): (v: View)
    ensures p.None? <==> v == NotFound("Payment not found.")
    ensures p.Some? ==> v == Showing(Normalize(p.value, route))
  {
    match p
    case None => NotFound("Payment not found.")
    case Some(f) => Showing(Normalize(f, route))
  }
}

=== FILE: gate.dfy ===
/** `requireAuth` (Backend/server.js): the bearer-header gate in front of
    every protected route. */
module Gate {
  import opened Js
  import opened Text
  import opened Records
  import opened Tokens

  /** The token `requireAuth` takes from a non-empty header:
      `const [scheme, token] = authHeader.split(" ")` followed by
      `scheme !== "Bearer" || !token`. `None` is the malformed case. */
  function BearerToken(header: string): Option<string> {
    var pieces := Split(header, ' ');
    if pieces[0] == "Bearer" && |pieces| > 1 && pieces[1] != "" then Some(pieces[1]) else None
  }

  /** The header is "Bearer", one space, a non-empty token without spaces,
      and then nothing or a space (anything after it is ignored). */
  predicate BearerShape(header: string, t: string) {
    && t != "" && ' ' !in t
    && |header| >= 7 + |t| && header[..7 + |t|] == "Bearer " + t
    && (|header| == 7 + |t| || header[7 + |t|] == ' ')
  }

  /** The split-based check accepts exactly the headers of that shape, so a
      double space, a missing token or any other scheme is malformed. */
  lemma BearerTokenIff(header: string, t: string)
    ensures BearerToken(header) == Some(t) <==> BearerShape(header, t)
  {
    if BearerToken(header) == Some(t) {
      var pieces := Split(header, ' ');
      JoinSplit(header, ' ');
      if |pieces| == 2 {
        assert header == "Bearer" + [' '] + t;
      } else {
        assert header == "Bearer" + [' '] + (t + [' '] + Join(pieces[2..], ' '));
      }
    }
    if BearerShape(header, t) {
      var rest := header[7 + |t|..];
      assert header == "Bearer" + [' '] + (t + rest);
      SplitPrefix("Bearer", t + rest, ' ');
      if rest == [] {
        assert t + rest == t;
        SplitPiece(t, ' ');
      } else {
        assert t + rest == t + [' '] + rest[1..];
        SplitPrefix(t, rest[1..], ' ');
      }
    }
  }

  /** What the gate decides: the request proceeds with the decoded payload
      attached, or it is answered with a 401. */
  datatype Decision = Authenticated(claims: Claims) | Denied(response: Response)

  const MissingHeader := Response(401, Message("Missing Authorization header"))
  const BadFormat := Response(401, Message("Invalid Authorization format"))
  const BadToken := Response(401, Message("Invalid or expired token"))

  /** `requireAuth`: four outcomes, checked in order. */
  function RequireAuth(svc: Services, header: Option<string>, nowMs: nat): (d: Decision)
    ensures !Present(header) ==> d == Denied(MissingHeader)
    ensures Present(header) && BearerToken(header.value).None? ==> d == Denied(BadFormat)
    ensures Present(header) && BearerToken(header.value).Some? ==>
              match Verify(svc, BearerToken(header.value).value, nowMs)
              case None => d == Denied(BadToken)
              case Some(c) => d == Authenticated(c)
    ensures d.Denied? ==> d.response.status == 401
  {
    if !Present(header) then Denied(MissingHeader)
    else match BearerToken(header.value)
      case None => Denied(BadFormat)
      case Some(t) =>
        match Verify(svc, t, nowMs)
        case None => Denied(BadToken)
        case Some(c) => Authenticated(c)
  }

  /** A request that carries a fresh access token issued by this server
      gets through with that token's payload. */
  lemma IssuedTokenAuthenticates(svc: Services, u: User, issued: nat, now: nat, suffix: string)
    requires Sound(svc)
    requires Seconds(now) < Seconds(issued) + AccessLifetime
    requires suffix == [] || suffix[0] == ' '
    ensures RequireAuth(svc, Some("Bearer " + SignAccessToken(svc, u, issued) + suffix), now)
            == Authenticated(AccessClaims(u.id, u.email, u.username, u.accountNumber))
  {
    var t := SignAccessToken(svc, u, issued);
    var h := "Bearer " + t + suffix;
    assert h[..7 + |t|] == "Bearer " + t;
    BearerTokenIff(h, t);
    AccessTokenLifetime(svc, u, issued, now);
  }

  /** The gate does not tell the two kinds of token apart: a live refresh
      token, whose payload is the bare user id, is let through as well. */
  lemma RefreshTokenAuthenticates(svc: Services, u: User, issued: nat, now: nat)
    requires Sound(svc)
    requires Seconds(now) < Seconds(issued) + RefreshLifetime
    ensures RequireAuth(svc, Some("Bearer " + SignRefreshToken(svc, u, issued)), now)
            == Authenticated(RefreshClaims(u.id))
  {
    var t := SignRefreshToken(svc, u, issued);
    var h := "Bearer " + t;
    assert h[..7 + |t|] == "Bearer " + t;
    BearerTokenIff(h, t);
    RefreshTokenLifetime(svc, u, issued, now);
  }
}

=== FILE: guards.dfy ===
/** The pages' submit handlers run their checks in a fixed order and stop at
    the first that fails, showing its message alone. `FirstFailure` is that
    rule stated once, as a reference the pages' handlers are proved against. */
module Guards {
  import opened Js

  /** One check of a submit handler: whether it passed, and the message
      shown when it did not. */
  datatype Guard = Guard(passed: bool, message: string)

  /** The message of the earliest failing check, if any fails. */
  function FirstFailure(gs: seq<Guard>): (r: Option<string>)
    ensures r.None? <==> forall k :: 0 <= k < |gs| ==> gs[k].passed
    ensures r.Some? ==> exists k :: 0 <= k < |gs| && !gs[k].passed && r.value == gs[k].message
                                     && forall j :: 0 <= j < k ==> gs[j].passed
  {
    if |gs| == 0 then None
    else if !gs[0].passed then Some(gs[0].message)
    else
      var rest := FirstFailure(gs[1..]);
      if rest.Some? then
        var k :| 0 <= k < |gs[1..]| && !gs[1..][k].passed && rest.value == gs[1..][k].message
                 && forall j :: 0 <= j < k ==> gs[1..][j].passed;
        assert gs[k + 1] == gs[1..][k];
        assert forall j :: 0 < j <= k ==> gs[j] == gs[1..][j - 1];
        rest
      else
        assert forall k :: 0 < k < |gs| ==> gs[k] == gs[1..][k - 1];
        rest
  }

  /** The first check decides when it fails; otherwise the rest do. */
  lemma FirstFailureCons(g: Guard, gs: seq<Guard>)
    ensures FirstFailure([g] + gs) == if g.passed then FirstFailure(gs) else Some(g.message)
  {
    assert ([g] + gs)[1..] == gs;
  }

  /** Unrolls the rule over a list of checks, head by head. */
  lemma {:induction false} FirstFailureUnrolled(gs: seq<Guard>)
    ensures FirstFailure(gs) == if |gs| == 0 then None
                                else if !gs[0].passed then Some(gs[0].message)
                                else FirstFailure(gs[1..])
  {
    if |gs| > 0 {
      assert gs == [gs[0]] + gs[1..];
      FirstFailureCons(gs[0], gs[1..]);
    }
  }
}

=== FILE: js.dfy ===
/** Values of the JavaScript runtime that the portal's code inspects:
    absent values, numbers with NaN and the infinities, and the truthiness
    rules behind `||`, `??` and `if (x)`. */
module Js {

  /** Present or absent; `None` stands for `undefined` (or `null`) in a
      request body or a record. */
  datatype Option<+T> = None | Some(value: T)

  /** A JavaScript number as far as the portal compares it: NaN, the two
      infinities, or a finite value (`-0` is the finite value 0). */
  datatype JsNumber = NaN | PosInfinity | NegInfinity | Finite(value: real)

  /** The kinds of value a rendered field can hold. */
  datatype JsValue = Undefined | Null | Bool(b: bool) | Number(n: JsNumber) | Str(s: string)

  /** `Boolean(v)`: false exactly for undefined, null, false, 0, NaN and "". */
  predicate Truthy(v: JsValue) {
    match v
    case Undefined => false
    case Null => false
    case Bool(b) => b
    case Number(n) => n != NaN && n != Finite(0.0)
    case Str(s) => s != ""
  }

  /** `a || b` */
  function Or(a: JsValue, b: JsValue): JsValue {
    if Truthy(a) then a else b
  }

  /** `a ?? b`: only undefined and null fall through. */
  function Coalesce(a: JsValue, b: JsValue): JsValue {
    if a == Undefined || a == Null then b else a
  }

  /** Truthiness of an optional string field: present and non-empty. */
  predicate Present(o: Option<string>) {
    o.Some? && o.value != ""
  }

  /** `a || b` on optional string fields. */
  function OrElse(a: Option<string>, b: Option<string>): Option<string> {
    if Present(a) then a else b
  }

  /** `a || d` where the fallback `d` is a string literal. */
  function OrDefault(a: Option<string>, d: string): string {
    if Present(a) then a.value else d
  }

  /** `<` on JavaScript numbers: every comparison with NaN is false. */
  predicate LessOrEqual(a: JsNumber, b: JsNumber) {
    match (a, b)
    case (NaN, _) => false
    case (_, NaN) => false
    case (NegInfinity, _) => true
    case (_, PosInfinity) => true
    case (PosInfinity, _) => false
    case (_, NegInfinity) => false
    case (Finite(x), Finite(y)) => x <= y
  }
}

=== FILE: ledger.dfy ===
/** The payment ledger query behind `GET /payments` (Backend/server.js):
    `Payment.find({ userId }).sort({ date: -1 })`. */
module Ledger {
  import opened Records

  /** Newest first. */
  predicate DateDescending(ps: seq<Payment>) {
    forall i, j :: 0 <= i < j < |ps| ==> ps[i].date >= ps[j].date
  }

  /** `find({ userId })`: the owner's payments, in stored order. */
  function OwnedBy(ps: seq<Payment>, owner: UserId): (r: seq<Payment>)
    ensures forall p :: multiset(r)[p] == if p.owner == owner then multiset(ps)[p] else 0
  {
    if |ps| == 0 then []
    else
      var rest := OwnedBy(ps[1..], owner);
      assert ps == [ps[0]] + ps[1..];
      if ps[0].owner == owner then [ps[0]] + rest else rest
  }

  /** Places `p` before the first payment that is not newer than it. */
  function Insert(p: Payment, s: seq<Payment>): (r: seq<Payment>)
    requires DateDescending(s)
    ensures DateDescending(r)
    ensures multiset(r) == multiset(s) + multiset{p}
    ensures |r| == |s| + 1 && (r[0] == p || (|s| > 0 && r[0] == s[0]))
  {
    if |s| == 0 || p.date >= s[0].date then [p] + s
    else
      var rest := Insert(p, s[1..]);
      assert s == [s[0]] + s[1..];
      ConsDescending(s[0], rest);
      [s[0]] + rest
  }

  /** A payment no older than the head of a newest-first list can go in front. */
  lemma ConsDescending(x: Payment, rest: seq<Payment>)
    requires DateDescending(rest)
    requires |rest| > 0 ==> x.date >= rest[0].date
    ensures DateDescending([x] + rest)
  {
    var r := [x] + rest;
    forall i, j | 0 <= i < j < |r| ensures r[i].date >= r[j].date {
      if i == 0 { assert r[j] == rest[j - 1]; }
      else { assert r[i] == rest[i - 1] && r[j] == rest[j - 1]; }
    }
  }

  /** `sort({ date: -1 })`, taken stable: payments with equal dates keep
      their stored order. */
  function SortByDateDesc(ps: seq<Payment>): (r: seq<Payment>)
    ensures DateDescending(r)
    ensures multiset(r) == multiset(ps)
  {
    if |ps| == 0 then []
    else
      assert ps == [ps[0]] + ps[1..];
      Insert(ps[0], SortByDateDesc(ps[1..]))
  }

  /** The listing `GET /payments` sends: exactly the owner's payments, each
      as often as it is stored, newest first. */
  function PaymentsOf(ps: seq<Payment>, owner: UserId): (r: seq<Payment>)
    ensures DateDescending(r)
    ensures forall p :: multiset(r)[p] == if p.owner == owner then multiset(ps)[p] else 0
    ensures forall i :: 0 <= i < |r| ==> r[i].owner == owner && r[i] in ps
  {
    var r := SortByDateDesc(OwnedBy(ps, owner));
    forall i | 0 <= i < |r| ensures r[i].owner == owner && r[i] in ps {
      assert r[i] in multiset(r);
    }
    r
  }

  /** Listing is insensitive to the payments of other users. */
  lemma PaymentsOfIgnoresOthers(ps: seq<Payment>, p: Payment, owner: UserId)
    requires p.owner != owner
    ensures multiset(PaymentsOf(ps + [p], owner)) == multiset(PaymentsOf(ps, owner))
  {
    var a := PaymentsOf(ps + [p], owner);
    var b := PaymentsOf(ps, owner);
    forall x ensures multiset(a)[x] == multiset(b)[x] {
      assert multiset(ps + [p]) == multiset(ps) + multiset{p};
    }
    assert multiset(a) == multiset(b);
  }
}

=== FILE: patterns.dfy ===
/** The whitelist patterns of the customer portal's form (`patterns` in
    src/App.js), each written as character classes with length bounds. */
module Patterns {
  import opened Js
  import opened Text

  /** First index of `c` in `s`, or -1. */
  function IndexOf(s: string, c: char): (r: int)
    ensures -1 <= r < |s|
    ensures r == -1 ==> forall k :: 0 <= k < |s| ==> s[k] != c
    ensures r >= 0 ==> s[r] == c && forall k :: 0 <= k < r ==> s[k] != c
  {
    if |s| == 0 then -1
    else if s[0] == c then 0
    else
      var k := IndexOf(s[1..], c);
      if k < 0 then assert s == [s[0]] + s[1..]; -1 else k + 1
  }

  /** Last index of `c` in `s`, or -1. */
  function LastIndexOf(s: string, c: char): (r: int)
    ensures -1 <= r < |s|
    ensures r == -1 ==> forall k :: 0 <= k < |s| ==> s[k] != c
    ensures r >= 0 ==> s[r] == c && forall k :: r < k < |s| ==> s[k] != c
  {
    if |s| == 0 then -1
    else if s[|s| - 1] == c then |s| - 1
    else
      var k := LastIndexOf(s[..|s| - 1], c);
      assert s == s[..|s| - 1] + [s[|s| - 1]];
      k
  }

  /** A `c` at `k` with none before it is the first one. */
  lemma IndexOfAt(s: string, c: char, k: int)
    requires 0 <= k < |s| && s[k] == c
    requires forall m :: 0 <= m < k ==> s[m] != c
    ensures IndexOf(s, c) == k
  {
  }

  /** A `c` at `k` with none after it is the last one. */
  lemma LastIndexOfAt(s: string, c: char, k: int)
    requires 0 <= k < |s| && s[k] == c
    requires forall m :: k < m < |s| ==> s[m] != c
    ensures LastIndexOf(s, c) == k
  {
  }

  predicate AllDigits(s: string) { forall i :: 0 <= i < |s| ==> IsDigit(s[i]) }
  predicate AllLetters(s: string) { forall i :: 0 <= i < |s| ==> IsLetter(s[i]) }

  // ----- username: /^[a-zA-Z0-9_]{3,20}$/

  predicate IsWordChar(c: char) { IsAlnum(c) || c == '_' }

  predicate IsUsername(s: string) {
    3 <= |s| <= 20 && forall i :: 0 <= i < |s| ==> IsWordChar(s[i])
  }

  // ----- email: /^[a-zA-Z0-9._%+-]+@[a-zA-Z0-9.-]+\.[a-zA-Z]{2,}$/

  predicate IsLocalChar(c: char) {
    IsAlnum(c) || c == '.' || c == '_' || c == '%' || c == '+' || c == '-'
  }

  predicate IsDomainChar(c: char) { IsAlnum(c) || c == '.' || c == '-' }

  predicate AllLocal(s: string) { forall i :: 0 <= i < |s| ==> IsLocalChar(s[i]) }
  predicate AllDomain(s: string) { forall i :: 0 <= i < |s| ==> IsDomainChar(s[i]) }

  /** The pattern matches with its "@" at `i` and its last "." at `j`. */
  predicate EmailAt(s: string, i: int, j: int) {
    && 0 < i && i + 1 < j && j < |s|
    && s[i] == '@' && s[j] == '.'
    && AllLocal(s[..i])
    && AllDomain(s[i + 1..j])
    && |s| - j - 1 >= 2 && AllLetters(s[j + 1..])
  }

  /** The regular expression's own reading: some choice of the "@" and the
      "." splits the address into local part, domain and top-level domain. */
  ghost predicate EmailShape(s: string) {
    exists i, j :: EmailAt(s, i, j)
  }

  /** The email pattern as a decision procedure: the "@" must be the only
      one and the top-level domain starts after the last ".". */
  predicate IsEmail(s: string) {
    var i := IndexOf(s, '@');
    && i >= 1
    && AllLocal(s[..i])
    && var j := LastIndexOf(s[i + 1..], '.');
    && j >= 1
    && EmailAt(s, i, i + 1 + j)
  }

  /** The decision procedure accepts exactly the strings the pattern matches. */
  lemma IsEmailIffShape(s: string)
    ensures IsEmail(s) <==> EmailShape(s)
  {
    if EmailShape(s) {
      var i, j :| EmailAt(s, i, j);
      EmailShapeDecided(s, i, j);
    }
  }

  /** A match found by the regular expression is found by `IsEmail` too:
      local and domain characters exclude "@", letters exclude ".". */
  lemma EmailShapeDecided(s: string, i: int, j: int)
    requires EmailAt(s, i, j)
    ensures IsEmail(s)
  {
    forall m | 0 <= m < i ensures s[m] != '@' {
      assert s[m] == s[..i][m];
    }
    IndexOfAt(s, '@', i);
    var r := s[i + 1..];
    forall m | j - i - 1 < m < |r| ensures r[m] != '.' {
      assert r[m] == s[j + 1..][m - (j - i)];
    }
    LastIndexOfAt(r, '.', j - i - 1);
  }

  // ----- accountNumber: /^[A-Z0-9]{4,20}$/

  predicate IsAccountNumber(s: string) {
    4 <= |s| <= 20 && forall i :: 0 <= i < |s| ==> IsUpperAlnum(s[i])
  }

  // ----- password:
  // /^(?=.*[a-z])(?=.*[A-Z])(?=.*\d)(?=.*[@$!%*?&])[A-Za-z\d@$!%*?&]{8,128}$/

  predicate IsPasswordSymbol(c: char) {
    c == '@' || c == '$' || c == '!' || c == '%' || c == '*' || c == '?' || c == '&'
  }

  predicate IsPasswordChar(c: char) { IsAlnum(c) || IsPasswordSymbol(c) }

  /** Each look-ahead `(?=.*[…])` asks for one character of a class somewhere. */
  predicate IsPassword(s: string) {
    && 8 <= |s| <= 128
    && (forall i :: 0 <= i < |s| ==> IsPasswordChar(s[i]))
    && (exists i :: 0 <= i < |s| && IsLower(s[i]))
    && (exists i :: 0 <= i < |s| && IsUpper(s[i]))
    && (exists i :: 0 <= i < |s| && IsDigit(s[i]))
    && (exists i :: 0 <= i < |s| && IsPasswordSymbol(s[i]))
  }

  // ----- amount: /^\d{1,10}(?:\.\d{1,2})?$/

  /** The amount pattern with its "." at `k`. */
  predicate AmountAt(s: string, k: int) {
    && 1 <= k <= 10 && k < |s| && s[k] == '.'
    && AllDigits(s[..k])
    && 1 <= |s| - k - 1 <= 2 && AllDigits(s[k + 1..])
  }

  /** The regular expression's own reading: a whole part alone, or a whole
      part, a "." and a fraction. */
  ghost predicate AmountShape(s: string) {
    (1 <= |s| <= 10 && AllDigits(s)) || exists k :: AmountAt(s, k)
  }

  /** The amount pattern as a decision procedure: split at the first ".". */
  predicate IsAmount(s: string) {
    var k := IndexOf(s, '.');
    if k < 0 then 1 <= |s| <= 10 && AllDigits(s) else AmountAt(s, k)
  }

  lemma IsAmountIffShape(s: string)
    ensures IsAmount(s) <==> AmountShape(s)
  {
    if AmountShape(s) {
      if 1 <= |s| <= 10 && AllDigits(s) {
        assert '.' !in s by {
          forall i | 0 <= i < |s| ensures s[i] != '.' { assert IsDigit(s[i]); }
        }
      } else {
        var k :| AmountAt(s, k);
        forall i | 0 <= i < k ensures s[i] != '.' { assert s[i] == s[..k][i]; }
        IndexOfAt(s, '.', k);
      }
    }
  }

  // ----- swiftCode: /^[A-Z]{6}[A-Z0-9]{2}(?:[A-Z0-9]{3})?$/

  predicate IsSwiftCode(s: string) {
    && (|s| == 8 || |s| == 11)
    && (forall i :: 0 <= i < 6 ==> IsUpper(s[i]))
    && (forall i :: 6 <= i < |s| ==> IsUpperAlnum(s[i]))
  }

  /** The regular expression's own reading: six letters, two letters or
      digits, and an optional group of three more. */
  ghost predicate SwiftShape(s: string) {
    exists bank, loc, branch ::
      && s == bank + loc + branch
      && |bank| == 6 && (forall i :: 0 <= i < 6 ==> IsUpper(bank[i]))
      && |loc| == 2 && (forall i :: 0 <= i < 2 ==> IsUpperAlnum(loc[i]))
      && (|branch| == 0 || |branch| == 3)
      && (forall i :: 0 <= i < |branch| ==> IsUpperAlnum(branch[i]))
  }

  lemma IsSwiftCodeIffShape(s: string)
    ensures IsSwiftCode(s) <==> SwiftShape(s)
  {
    if IsSwiftCode(s) {
      var bank, loc, branch := s[..6], s[6..8], s[8..];
      assert s == bank + loc + branch;
      assert forall i :: 0 <= i < 2 ==> loc[i] == s[6 + i];
      assert forall i :: 0 <= i < |branch| ==> branch[i] == s[8 + i];
    }
    if SwiftShape(s) {
      var bank, loc, branch :|
        && s == bank + loc + branch
        && |bank| == 6 && (forall i :: 0 <= i < 6 ==> IsUpper(bank[i]))
        && |loc| == 2 && (forall i :: 0 <= i < 2 ==> IsUpperAlnum(loc[i]))
        && (|branch| == 0 || |branch| == 3)
        && (forall i :: 0 <= i < |branch| ==> IsUpperAlnum(branch[i]));
      forall i | 0 <= i < |s| ensures if i < 6 then IsUpper(s[i]) else IsUpperAlnum(s[i]) {
        if i < 6 { assert s[i] == bank[i]; }
        else if i < 8 { assert s[i] == loc[i - 6]; }
        else { assert s[i] == branch[i - 8]; }
      }
    }
  }
}

=== FILE: payment_page.dfy ===
/** The payment page (src/pages/Payment.jsx): its form defaults, the
    currencies it offers, and the submit handler's first-failure-wins chain
    of client checks before `createPayment` is called. */
module PaymentPage {
  import opened Js
  import opened Text
  import opened Patterns
  import opened Guards

  const Currencies: seq<string> := ["ZAR", "USD", "EUR", "GBP"]

  /** The page's form state; `amount` is the text typed, read with
      `Number(...)` on submit. */
  datatype PaymentForm = PaymentForm(amount: string, currency: string, provider: string, payeeName: string,
                                     payeeAccountNumber: string, swiftBic: string, reference: string)

  /** The form as the page opens: a South African rand payment over SWIFT
      with every text field empty. */
  function Initial(): (f: PaymentForm)
    ensures f.currency == "ZAR" && f.currency in Currencies && f.provider == "SWIFT"
    ensures f.amount == "" && f.payeeName == "" && f.payeeAccountNumber == "" && f.swiftBic == "" && f.reference == ""
  {
    PaymentForm("", "ZAR", "SWIFT", "", "", "", "")
  }

  /** The characters the payee name and reference patterns allow. */
  predicate IsPayeeChar(c: char) {
    IsAlnum(c) || c == ' ' || c == ',' || c == '.' || c == '\'' || c == '-'
  }

  predicate AllPayeeChars(s: string) { forall i :: 0 <= i < |s| ==> IsPayeeChar(s[i]) }

  /** Two to one hundred payee characters. */
  predicate IsPayeeName(s: string) { 2 <= |s| <= 100 && AllPayeeChars(s) }

  /** Six to thirty-four ASCII letters or digits. */
  predicate IsPayeeAccount(s: string) {
    6 <= |s| <= 34 && forall i :: 0 <= i < |s| ==> IsAlnum(s[i])
  }

  /** Six letters, two letters or digits, optionally three more, in either
      case. */
  predicate IsBic(s: string) {
    && (|s| == 8 || |s| == 11)
    && (forall i :: 0 <= i < 6 ==> IsLetter(s[i]))
    && (forall i :: 6 <= i < |s| ==> IsAlnum(s[i]))
  }

  /** At most thirty-five payee characters. */
  predicate IsReference(s: string) { |s| <= 35 && AllPayeeChars(s) }

  const AmountError := "Amount must be positive"
  const PayeeError := "Invalid payee name"
  const AccountError := "Invalid account number"
  const BicError := "Invalid SWIFT/BIC"
  const ReferenceError := "Invalid reference"

  /** What a submit does: show one error, or hand the form to
      `createPayment` with the amount as a number. */
  datatype Submit = Refused(errors: seq<string>) | Created(form: PaymentForm, amount: JsNumber)

  /** The submit handler. `amount` is `Number(form.amount)`; converting text
      to a number is not modelled. `Number(...) <= 0` is false for NaN. */
  function OnSubmit(form: PaymentForm, amount: JsNumber): (r: Submit)
    ensures r.Refused? ==> |r.errors| == 1
    ensures r.Created? ==> r == Created(form, amount)
    ensures LessOrEqual(amount, Finite(0.0)) ==> r == Refused([AmountError])
  {
    if LessOrEqual(amount, Finite(0.0)) then Refused([AmountError])
    else if !IsPayeeName(form.payeeName) then Refused([PayeeError])
    else if !IsPayeeAccount(form.payeeAccountNumber) then Refused([AccountError])
    else if !IsBic(form.swiftBic) then Refused([BicError])
    else if form.reference != "" && !IsReference(form.reference) then Refused([ReferenceError])
    else Created(form, amount)
  }

  /** The page's checks in the order it runs them. */
  function Checks(form: PaymentForm, amount: JsNumber): seq<Guard> {
    [ Guard(!LessOrEqual(amount, Finite(0.0)), AmountError),
      Guard(IsPayeeName(form.payeeName), PayeeError),
      Guard(IsPayeeAccount(form.payeeAccountNumber), AccountError),
      Guard(IsBic(form.swiftBic), BicError),
      Guard(form.reference == "" || IsReference(form.reference), ReferenceError) ]
  }

  /** The handler is the first-failure rule over that list: the earliest
      failing check's message is the only error, and `createPayment` is
      called exactly when no check fails. */
  lemma OnSubmitIsFirstFailure(form: PaymentForm, amount: JsNumber)
    ensures FirstFailure(Checks(form, amount)).Some? ==>
              OnSubmit(form, amount) == Refused([FirstFailure(Checks(form, amount)).value])
    ensures FirstFailure(Checks(form, amount)).None? <==> OnSubmit(form, amount).Created?
  {
    var gs := Checks(form, amount);
    FirstFailureUnrolled(gs);
    FirstFailureUnrolled(gs[1..]);
    FirstFailureUnrolled(gs[2..]);
    FirstFailureUnrolled(gs[3..]);
    FirstFailureUnrolled(gs[4..]);
    FirstFailureUnrolled(gs[5..]);
  }

  /** NaN is not `<= 0`, so if `onSubmit` is called with an amount that is
      not a number it passes the amount check. The page's `type="number"`
      input keeps the browser from submitting such a value. */
  lemma NotANumberPasses(form: PaymentForm)
    requires IsPayeeName(form.payeeName) && IsPayeeAccount(form.payeeAccountNumber) && IsBic(form.swiftBic)
    requires form.reference == ""
    ensures OnSubmit(form, NaN) == Created(form, NaN)
  {
  }

  /** Every code the portal's SWIFT pattern accepts is a BIC here, and a BIC
      in upper case is one the portal accepts. */
  lemma SwiftCodeIsBic(s: string)
    ensures IsSwiftCode(s) ==> IsBic(s)
    ensures IsBic(s) ==> IsSwiftCode(ToUpper(s))
  {
  }

  /** The BIC check ignores letter case. */
  lemma BicIgnoresCase(s: string)
    ensures IsBic(s) <==> IsBic(ToUpper(s))
    ensures IsBic(s) <==> IsBic(ToLower(s))
  {
    forall i | 0 <= i < |s| ensures IsLetter(s[i]) <==> IsLetter(ToUpper(s)[i]) && IsLetter(ToLower(s)[i])
                             ensures IsAlnum(s[i]) <==> IsAlnum(ToUpper(s)[i]) && IsAlnum(ToLower(s)[i]) {
      CaseKeepsClass(s[i]);
    }
  }

  lemma CaseKeepsClass(c: char)
    ensures IsLetter(c) <==> IsLetter(UpperChar(c)) && IsLetter(LowerChar(c))
    ensures IsAlnum(c) <==> IsAlnum(UpperChar(c)) && IsAlnum(LowerChar(c))
  {
  }
}

=== FILE: payment_routes.dfy ===
/** `GET /payments` and `POST /payments` (Backend/server.js): both behind
    `requireAuth`, both keyed on the caller's user id from the token. */
module PaymentRoutes {
  import opened Js
  import opened Text
  import opened Records
  import opened Tokens
  import opened Gate
  import opened Ledger

  /** `GET /payments`: the caller's payments, newest first. */
  function ListPayments(svc: Services, st: Store, header: Option<string>, nowMs: nat): (o: Outcome)
    ensures o.store == st
    ensures RequireAuth(svc, header, nowMs).Denied? ==> o.response == RequireAuth(svc, header, nowMs).response
    ensures RequireAuth(svc, header, nowMs).Authenticated? ==>
              var owner := RequireAuth(svc, header, nowMs).claims.userId;
              && o.response.status == 200 && o.response.body.PaymentList?
              && DateDescending(o.response.body.payments)
              && forall p :: multiset(o.response.body.payments)[p]
                               == if p.owner == owner then multiset(st.payments)[p] else 0
  {
    match RequireAuth(svc, header, nowMs)
    case Denied(r) => Outcome(st, r)
    case Authenticated(c) => Outcome(st, Response(200, PaymentList(PaymentsOf(st.payments, c.userId))))
  }

  /** The body of `POST /payments`. The amount is the number the validator
      reads (`None` when absent); parsing it from text is not modelled. */
  datatype PaymentRequest = PaymentRequest(amount: Option<JsNumber>, description: Option<string>)

  /** `isFloat({ gt: 0 })` passes: a finite number above zero. */
  predicate PositiveAmount(amount: Option<JsNumber>) {
    amount.Some? && amount.value.Finite? && amount.value.value > 0.0
  }

  /** The failures `createPaymentValidators` report. A missing amount fails
      both `exists()` and `isFloat`; the description never fails, since
      `trim()` has already made it a string. */
  function AmountIssues(amount: Option<JsNumber>): (issues: seq<Issue>)
    ensures issues == [] <==> PositiveAmount(amount)
    ensures amount.None? ==> issues == [AmountRequired, AmountNotPositive]
    ensures amount.Some? && !PositiveAmount(amount) ==> issues == [AmountNotPositive]
  {
    Check(amount.Some?, AmountRequired) + Check(PositiveAmount(amount), AmountNotPositive)
  }

  /** `Payment.create(...)`: owned by the caller, dated now, the description
      as sanitized. */
  function NewPayment(id: nat, owner: UserId, req: PaymentRequest, nowMs: nat): Payment
    requires PositiveAmount(req.amount)
  {
    Payment(id, owner, req.amount.value.value, nowMs,
            if req.description.Some? then Some(Trim(req.description.value)) else None)
  }

  /** `POST /payments`: the gate first, then validation, then the insert. */
  function CreatePayment(svc: Services, st: Store, header: Option<string>, req: PaymentRequest, nowMs: nat): (o: Outcome)
    ensures RequireAuth(svc, header, nowMs).Denied? ==> o == Outcome(st, RequireAuth(svc, header, nowMs).response)
    ensures RequireAuth(svc, header, nowMs).Authenticated? && !PositiveAmount(req.amount) ==>
              o == Outcome(st, Rejection(AmountIssues(req.amount)))
    ensures o.response.status == 200 <==> RequireAuth(svc, header, nowMs).Authenticated? && PositiveAmount(req.amount)
    ensures o.response.status != 200 ==> o.store == st
    ensures o.response.status == 200 ==>
              && o.response.body.PaymentCreated?
              && var p := o.response.body.payment;
              && o.store == st.(payments := st.payments + [p], nextId := st.nextId + 1)
              && p.id == st.nextId
              && p.owner == RequireAuth(svc, header, nowMs).claims.userId
              && p.amount == req.amount.value.value && p.amount > 0.0
              && p.date == nowMs
              && (p.description.Some? <==> req.description.Some?)
              && (p.description.Some? ==> p.description.value == Trim(req.description.value))
  {
    match RequireAuth(svc, header, nowMs)
    case Denied(r) => Outcome(st, r)
    case Authenticated(c) =>
      if !PositiveAmount(req.amount) then Outcome(st, Rejection(AmountIssues(req.amount)))
      else
        var p := NewPayment(st.nextId, c.userId, req, nowMs);
        Outcome(st.(payments := st.payments + [p], nextId := st.nextId + 1), Response(200, PaymentCreated(p)))
  }

  /** A payment just created shows up in its owner's next listing, once more
      than before, and nobody else's listing changes. */
  lemma CreateThenList(svc: Services, st: Store, header: Option<string>, req: PaymentRequest, nowMs: nat,
                       other: UserId)
    requires CreatePayment(svc, st, header, req, nowMs).response.status == 200
    ensures
      var o := CreatePayment(svc, st, header, req, nowMs);
      var p := o.response.body.payment;
      var owner := RequireAuth(svc, header, nowMs).claims.userId;
      && multiset(PaymentsOf(o.store.payments, owner))[p] == multiset(PaymentsOf(st.payments, owner))[p] + 1
      && (other != owner ==>
            multiset(PaymentsOf(o.store.payments, other)) == multiset(PaymentsOf(st.payments, other)))
  {
    var o := CreatePayment(svc, st, header, req, nowMs);
    var p := o.response.body.payment;
    assert multiset(st.payments + [p]) == multiset(st.payments) + multiset{p};
    var owner := RequireAuth(svc, header, nowMs).claims.userId;
    if other != owner {
      PaymentsOfIgnoresOthers(st.payments, p, other);
    }
  }
}

=== FILE: portal.dfy ===
/** The portal's client (src/App.js) against its server (Backend/server.js):
    what the client's checks promise the server's validators, and where the
    two disagree. */
module Portal {
  import opened Js
  import opened Text
  import opened Patterns
  import opened Sanitize
  import opened Records
  import opened Tokens
  import opened AppForm
  import opened Accounts
  import opened PaymentRoutes

  /** The body `handleRegister` posts: every field as a string, so an
      untouched field arrives as "" rather than absent. */
  function RegisterBody(step: RegisterStep): (req: RegisterRequest)
    requires step.RegisterSent?
    ensures req.username.Some? && req.email.Some? && req.password.Some? && req.accountNumber.Some?
  {
    RegisterRequest(Some(step.username), Some(step.email), Some(step.password), Some(step.accountNumber))
  }

  /** Strings the client's patterns accept contain no white space. */
  lemma NoSpaceIn(s: string, p: char -> bool)
    requires forall i :: 0 <= i < |s| ==> p(s[i])
    requires forall c :: p(c) ==> !IsJsSpace(c)
    ensures Trim(s) == s
  {
    TrimNoSpace(s);
  }

  /** A username, password and account number the client accepts pass the
      server's username, password and account validators. */
  lemma ClientValidPassesServer(u: string, e: string, p: string, a: string)
    requires IsUsername(u) && IsPassword(p) && IsAccountNumber(a)
    ensures var req := RegisterRequest(Some(u), Some(e), Some(p), Some(a));
            UsernameOk(req) && PasswordOk(req) && AccountOk(req)
  {
    NoSpaceIn(u, IsWordChar);
    NoSpaceIn(a, IsUpperAlnum);
    ValidatorLengthPlain(u);
    ValidatorLengthPlain(p);
    ValidatorLengthPlain(a);
  }

  /** If `handleRegister` is called with the account number field still
      empty (as it is when nobody edited it: `UneditedStaysEmpty`), the body
      carries "", which `optional()` does not skip: the server reports it as
      neither alphanumeric nor of the right length. The input's `required`
      attribute keeps the browser from submitting such a form; a client that
      posts the body directly meets this answer. */
  lemma EmptyAccountSentRejected(svc: Services, st: Form)
    requires Complete(st.values) && st.values[AccountNumber] == ""
    requires HandleRegister(st).RegisterSent?
    ensures var issues := RegisterIssues(svc, RegisterBody(HandleRegister(st)));
            AccountNotAlphanumeric in issues && AccountLength in issues
  {
    EmptyAccountRejected(svc, RegisterBody(HandleRegister(st)));
  }

  /** If `handleRegister` is called on the untouched customer form, it
      hands over the empty body, and the server rejects every field it
      validates except, possibly, the email. */
  lemma UntouchedFormRejected(svc: Services)
    ensures HandleRegister(Reset(false)).RegisterSent?
    ensures var issues := RegisterIssues(svc, RegisterBody(HandleRegister(Reset(false))));
            && UsernameTooShort in issues && PasswordTooShort in issues
            && AccountNotAlphanumeric in issues && AccountLength in issues
  {
    var req := RegisterBody(HandleRegister(Reset(false)));
    assert req == RegisterRequest(Some(""), Some(""), Some(""), Some(""));
    assert Trim("") == "";
    RegisterIssuesReport(svc, req);
  }

  /** An empty account number fails both account validators. */
  lemma EmptyAccountRejected(svc: Services, req: RegisterRequest)
    requires req.accountNumber == Some("")
    ensures AccountNotAlphanumeric in RegisterIssues(svc, req) && AccountLength in RegisterIssues(svc, req)
  {
    assert Trim("") == "";
    RegisterIssuesReport(svc, req);
  }

  /** The amount "0" passes the client's amount pattern, so `handlePayment`
      hands the payment over; the server refuses the number zero. The link
      between the two, `parseFloat("0")` being zero, is not modelled
      (text-to-number conversion is a parameter of the model), so the second
      clause is stated about the number zero itself. */
  lemma ZeroAmountPassesClientOnly(st: Form)
    requires Complete(st.values) && st.values[Amount] == "0" && IsSwiftCode(st.values[SwiftCode])
    ensures HandlePayment(st).PaymentSent?
    ensures AmountIssues(Some(Finite(0.0))) == [AmountNotPositive]
  {
    assert AllDigits("0");
    IsAmountIffShape("0");
  }
}

=== FILE: profile.dfy ===
/** `GET /me` and `PATCH /me` (Backend/server.js): the caller's own user
    document, read and selectively updated. */
module Profile {
  import opened Js
  import opened Text
  import opened Records
  import opened Tokens
  import opened Gate

  const NoSuchUser := Response(404, Message("User not found"))

  /** `GET /me`: the caller's document without the password hash. */
  function GetMe(svc: Services, st: Store, header: Option<string>, nowMs: nat): (o: Outcome)
    ensures o.store == st
    ensures RequireAuth(svc, header, nowMs).Denied? ==> o.response == RequireAuth(svc, header, nowMs).response
    ensures RequireAuth(svc, header, nowMs).Authenticated? ==>
              var id := RequireAuth(svc, header, nowMs).claims.userId;
              && (UserIndex(st.users, id).None? ==> o.response == NoSuchUser)
              && (UserIndex(st.users, id).Some? ==>
                    && o.response.status == 200
                    && o.response.body == ProfileBody(ProfileOf(st.users[UserIndex(st.users, id).value]))
                    && o.response.body.profile.id == id)
  {
    match RequireAuth(svc, header, nowMs)
    case Denied(r) => Outcome(st, r)
    case Authenticated(c) =>
      match UserIndex(st.users, c.userId)
      case None => Outcome(st, NoSuchUser)
      case Some(k) => Outcome(st, Response(200, ProfileBody(ProfileOf(st.users[k]))))
  }

  /** The body of `PATCH /me`; `None` is an absent field. */
  datatype PatchRequest = PatchRequest(email: Option<string>, password: Option<string>)

  /** The failures `patchMeValidators` report: a supplied email must look
      like one, a supplied password must have eight characters. */
  function PatchIssues(svc: Services, req: PatchRequest): (issues: seq<Issue>)
    ensures issues == [] <==>
              (req.email.Some? ==> svc.isEmail(req.email.value)) && (req.password.Some? ==> ValidatorLength(req.password.value) >= 8)
  {
    Check(req.email.None? || svc.isEmail(req.email.value), EmailInvalid)
    + Check(req.password.None? || ValidatorLength(req.password.value) >= 8, PasswordTooShort)
  }

  /** The email the update carries: the supplied one after `normalizeEmail()`. */
  function NewEmail(svc: Services, req: PatchRequest): Option<string> {
    if req.email.Some? then Some(svc.normalizeEmail(req.email.value)) else None
  }

  /** The document after `findByIdAndUpdate(userId, update)`: only the
      fields put into `update` change. */
  function Patched(svc: Services, u: User, req: PatchRequest): User {
    u.(email := if Present(NewEmail(svc, req)) then NewEmail(svc, req).value else u.email,
       passwordHash := if Present(req.password) then svc.hash(req.password.value) else u.passwordHash)
  }

  /** `PATCH /me`. */
  function PatchMe(svc: Services, st: Store, header: Option<string>, req: PatchRequest, nowMs: nat): (o: Outcome)
    ensures RequireAuth(svc, header, nowMs).Denied? ==> o == Outcome(st, RequireAuth(svc, header, nowMs).response)
    ensures RequireAuth(svc, header, nowMs).Authenticated? && PatchIssues(svc, req) != [] ==>
              o == Outcome(st, Rejection(PatchIssues(svc, req)))
    ensures o.response.status != 200 ==> o.store == st
    ensures o.response.status == 200 <==>
              && RequireAuth(svc, header, nowMs).Authenticated? && PatchIssues(svc, req) == []
              && UserIndex(st.users, RequireAuth(svc, header, nowMs).claims.userId).Some?
    ensures o.response.status == 200 ==> |o.store.users| == |st.users|
    ensures o.response.status == 200 ==>
              var k := UserIndex(st.users, RequireAuth(svc, header, nowMs).claims.userId).value;
              var before := st.users[k];
              var after := o.store.users[k];
              && o.store == st.(users := o.store.users)
              && (forall j :: 0 <= j < |st.users| && j != k ==> o.store.users[j] == st.users[j])
              && after.id == before.id && after.username == before.username
              && after.accountNumber == before.accountNumber && after.createdAt == before.createdAt
              && after.email == (if Present(NewEmail(svc, req)) then NewEmail(svc, req).value else before.email)
              && after.passwordHash == (if Present(req.password) then svc.hash(req.password.value) else before.passwordHash)
              && o.response == Response(200, ProfileBody(ProfileOf(after)))
  {
    match RequireAuth(svc, header, nowMs)
    case Denied(r) => Outcome(st, r)
    case Authenticated(c) =>
      if PatchIssues(svc, req) != [] then Outcome(st, Rejection(PatchIssues(svc, req)))
      else match UserIndex(st.users, c.userId)
        case None => Outcome(st, NoSuchUser)
        case Some(k) =>
          var u := Patched(svc, st.users[k], req);
          Outcome(st.(users := st.users[k := u]), Response(200, ProfileBody(ProfileOf(u))))
  }

  /** Reading back after a successful update: `GET /me` with the same
      token shows exactly the profile `PATCH /me` answered with. */
  lemma PatchThenGetMe(svc: Services, st: Store, header: Option<string>, req: PatchRequest, nowMs: nat)
    requires PatchMe(svc, st, header, req, nowMs).response.status == 200
    ensures GetMe(svc, PatchMe(svc, st, header, req, nowMs).store, header, nowMs).response
              == PatchMe(svc, st, header, req, nowMs).response
  {
    var o := PatchMe(svc, st, header, req, nowMs);
    var id := RequireAuth(svc, header, nowMs).claims.userId;
    var k := UserIndex(st.users, id).value;
    assert o.store.users[k].id == id;
    assert UserIndex(o.store.users, id) == Some(k);
  }

  /** An update with neither field changes nothing. */
  lemma EmptyPatchKeepsStore(svc: Services, st: Store, header: Option<string>, nowMs: nat)
    ensures PatchMe(svc, st, header, PatchRequest(None, None), nowMs).store == st
  {
    var o := PatchMe(svc, st, header, PatchRequest(None, None), nowMs);
    if o.response.status == 200 {
      var k := UserIndex(st.users, RequireAuth(svc, header, nowMs).claims.userId).value;
      assert o.store.users == st.users;
    }
  }

  /** Unlike registration, the update does not look for the email among the
      other users: taking another user's (normalized) email succeeds and
      leaves two users with one address. */
  lemma PatchMeCanDuplicateEmail(svc: Services, st: Store, header: Option<string>, nowMs: nat, e: string, j: nat)
    requires RequireAuth(svc, header, nowMs).Authenticated?
    requires UserIndex(st.users, RequireAuth(svc, header, nowMs).claims.userId).Some?
    requires j < |st.users| && j != UserIndex(st.users, RequireAuth(svc, header, nowMs).claims.userId).value
    requires svc.isEmail(e) && svc.normalizeEmail(e) == st.users[j].email && st.users[j].email != ""
    ensures PatchMe(svc, st, header, PatchRequest(Some(e), None), nowMs).response.status == 200
    ensures !UniqueEmails(PatchMe(svc, st, header, PatchRequest(Some(e), None), nowMs).store.users)
  {
    var o := PatchMe(svc, st, header, PatchRequest(Some(e), None), nowMs);
    var k := UserIndex(st.users, RequireAuth(svc, header, nowMs).claims.userId).value;
    assert o.store.users[k].email == o.store.users[j].email;
  }
}

=== FILE: records.dfy ===
/** The backend's persisted documents (Backend/server.js, the three
    Mongoose schemas) and the HTTP responses its handlers send. Document
    ids are modelled as natural numbers drawn from one counter. */
module Records {
  import opened Js

  type UserId = nat

  /** A `User` document; `passwordHash` holds the bcrypt hash, never the
      password itself. */
  datatype User = User(
    id: UserId,
    username: string,
    email: string,
    passwordHash: string,
    accountNumber: Option<string>,
    createdAt: nat)

  /** A `Payment` document: owner, positive amount, creation time (ms). */
  datatype Payment = Payment(id: nat, owner: UserId, amount: real, date: nat, description: Option<string>)

  /** A `RefreshToken` document: the signed token verbatim, its user and
      an expiry time (ms) that nothing ever reads. */
  datatype RefreshRecord = RefreshRecord(token: string, userId: UserId, expiresAt: nat)

  /** The three collections, in insertion order, and the id counter. */
  datatype Store = Store(
    users: seq<User>,
    payments: seq<Payment>,
    refreshTokens: seq<RefreshRecord>,
    nextId: nat)

  /** A user as `GET /me` and `PATCH /me` return it: `select("-password -__v")`. */
  datatype Profile = Profile(id: UserId, username: string, email: string, accountNumber: Option<string>, createdAt: nat)

  function ProfileOf(u: User): Profile {
    Profile(u.id, u.username, u.email, u.accountNumber, u.createdAt)
  }

  /** One entry of express-validator's `errors.array()`: the field and its message. */
  datatype FieldError = FieldError(path: string, msg: string)

  /** Every validator failure the backend's validator chains can report. */
  datatype Issue =
    | UsernameTooShort
    | EmailInvalid
    | PasswordTooShort
    | AccountNotAlphanumeric
    | AccountLength
    | PasswordRequired
    | AmountRequired
    | AmountNotPositive

  /** The entry each failure puts in the error list. `isAlphanumeric()` has
      no `withMessage` of its own and reports the library's default. */
  function Entry(i: Issue): FieldError {
    match i
    case UsernameTooShort => FieldError("username", "username must be at least 3 characters")
    case EmailInvalid => FieldError("email", "invalid email")
    case PasswordTooShort => FieldError("password", "password must be at least 8 characters")
    case AccountNotAlphanumeric => FieldError("accountNumber", "Invalid value")
    case AccountLength => FieldError("accountNumber", "accountNumber must be 4-20 alphanumeric characters")
    case PasswordRequired => FieldError("password", "password required")
    case AmountRequired => FieldError("amount", "amount is required")
    case AmountNotPositive => FieldError("amount", "amount must be a number greater than 0")
  }

  /** `errors.array()` for the failures found, in order. */
  function Entries(issues: seq<Issue>): (r: seq<FieldError>)
    ensures |r| == |issues|
    ensures forall k :: 0 <= k < |r| ==> r[k] == Entry(issues[k])
  {
    seq(|issues|, k requires 0 <= k < |issues| => Entry(issues[k]))
  }

  /** One validator's contribution: its failure, if it failed. */
  function Check(ok: bool, i: Issue): (r: seq<Issue>)
    ensures forall x :: x in r <==> !ok && x == i
  {
    if ok then [] else [i]
  }

  /** The 400 a failed validation answers with. */
  function Rejection(issues: seq<Issue>): Response {
    Response(400, Invalid(Entries(issues)))
  }

  /** The JSON bodies the handlers send. */
  datatype Body =
    | Message(message: string)
    | Invalid(errors: seq<FieldError>)
    | Registered(userId: UserId)
    | LoggedIn(token: string, refreshToken: string, userId: UserId, username: string, email: string)
    | Refreshed(token: string)
    | LoggedOut
    | PaymentList(payments: seq<Payment>)
    | PaymentCreated(payment: Payment)
    | ProfileBody(profile: Profile)

  datatype Response = Response(status: nat, body: Body)

  /** A handler's effect: the store afterwards and the response sent. */
  datatype Outcome = Outcome(store: Store, response: Response)

  /** Position of the user with the given id (`findById`), if any. */
  function UserIndex(users: seq<User>, id: UserId): (r: Option<nat>)
    ensures r.Some? ==> r.value < |users| && users[r.value].id == id
    ensures r.Some? ==> forall k :: 0 <= k < r.value ==> users[k].id != id
    ensures r.None? ==> forall k :: 0 <= k < |users| ==> users[k].id != id
  {
    if |users| == 0 then None
    else if users[0].id == id then Some(0)
    else match UserIndex(users[1..], id)
      case None => None
      case Some(k) => Some(k + 1)
  }

  /** Every document id is below the counter and user ids are distinct. */
  predicate IdsFresh(st: Store) {
    && (forall k :: 0 <= k < |st.users| ==> st.users[k].id < st.nextId)
    && (forall k :: 0 <= k < |st.payments| ==> st.payments[k].id < st.nextId)
    && (forall j, k :: 0 <= j < k < |st.users| ==> st.users[j].id != st.users[k].id)
  }

  /** No two users share an email address. */
  predicate UniqueEmails(users: seq<User>) {
    forall j, k :: 0 <= j < k < |users| ==> users[j].email != users[k].email
  }
}

=== FILE: register_page.dfy ===
/** The registration page (src/pages/Register.jsx): the submit handler
    clears the page's messages, then checks that the two passwords agree and
    that consent was given, in that order, before calling `register`. */
module RegisterPage {
  import opened Js
  import opened Guards

  datatype RegisterForm = RegisterForm(fullName: string, idNumber: string, accountNumber: string, email: string,
                                       password: string, confirmPassword: string, consent: bool)

  /** The form as the page opens: every text field empty, consent unticked. */
  function Initial(): (f: RegisterForm)
    ensures !f.consent && f.password == f.confirmPassword
    ensures f.fullName == "" && f.idNumber == "" && f.accountNumber == "" && f.email == "" && f.password == ""
  {
    RegisterForm("", "", "", "", "", "", false)
  }

  /** The page's messages: the error banner and the success banner. */
  datatype Banners = Banners(errors: seq<string>, ok: string)

  /** The page after a submit, and the form handed to `register` if any.
      What `register` answers is outside the model. */
  datatype Submit = Submit(page: Banners, sent: Option<RegisterForm>)

  const MismatchError := "Passwords do not match"
  const ConsentError := "Please accept consent"

  /** The submit handler: the messages from earlier submits are cleared
      first, so at most one new error shows. */
  function OnSubmit(before: Banners, form: RegisterForm): (r: Submit)
    ensures r.page.ok == ""
    ensures |r.page.errors| <= 1
    ensures r.sent.Some? ==> r.sent.value == form && r.page.errors == []
    ensures form.password != form.confirmPassword ==> r == Submit(Banners([MismatchError], ""), None)
  {
    var cleared := Banners([], "");
    if form.password != form.confirmPassword then Submit(cleared.(errors := [MismatchError]), None)
    else if !form.consent then Submit(cleared.(errors := [ConsentError]), None)
    else Submit(cleared, Some(form))
  }

  /** The page's two checks in the order it runs them. */
  function Checks(form: RegisterForm): seq<Guard> {
    [Guard(form.password == form.confirmPassword, MismatchError), Guard(form.consent, ConsentError)]
  }

  /** The handler is the first-failure rule over those checks: the mismatch
      error wins over the consent error, and `register` is called exactly
      when both pass. */
  lemma OnSubmitIsFirstFailure(before: Banners, form: RegisterForm)
    ensures FirstFailure(Checks(form)).Some? ==>
              OnSubmit(before, form) == Submit(Banners([FirstFailure(Checks(form)).value], ""), None)
    ensures FirstFailure(Checks(form)).None? <==> OnSubmit(before, form).sent.Some?
    ensures OnSubmit(before, form).sent.Some? <==> form.password == form.confirmPassword && form.consent
  {
    var gs := Checks(form);
    FirstFailureUnrolled(gs);
    FirstFailureUnrolled(gs[1..]);
    FirstFailureUnrolled(gs[2..]);
  }

  /** Nothing from earlier submits survives: the outcome depends on the form
      alone. */
  lemma OnSubmitForgetsEarlier(a: Banners, b: Banners, form: RegisterForm)
    ensures OnSubmit(a, form) == OnSubmit(b, form)
  {
  }

  /** Without consent and with differing passwords, only the mismatch is
      reported. */
  lemma MismatchWins(before: Banners, form: RegisterForm)
    requires form.password != form.confirmPassword && !form.consent
    ensures OnSubmit(before, form).page.errors == [MismatchError]
    ensures ConsentError !in OnSubmit(before, form).page.errors
  {
  }
}

=== FILE: sanitize.dfy ===
/** `sanitizeInput` of the customer portal (src/App.js): markup removal,
    trimming, and the per-field error map the whitelist patterns drive. */
module Sanitize {
  import opened Text
  import opened Patterns

  /** No "<" is followed, anywhere later, by a ">": nothing the tag pattern
      `/<[^>]*>/` could still match. */
  predicate TagFree(s: string) {
    forall i, j :: 0 <= i < j < |s| && s[i] == '<' ==> s[j] != '>'
  }

  /** `value.replace(/<[^>]*>/g, '')`: scanning left to right, a "<" that
      has a ">" somewhere after it is removed together with everything up
      to and including the first such ">"; a "<" with no ">" after it is
      kept. */
  function StripTags(s: string): string
    decreases |s|
  {
    if |s| == 0 then []
    else if s[0] == '<' && '>' in s[1..] then
      var k := IndexOf(s[1..], '>');
      StripTags(s[k + 2..])
    else [s[0]] + StripTags(s[1..])
  }

  /** `sanitizeInput`'s value: markup removed, then white space trimmed. */
  function Clean(s: string): string {
    Trim(StripTags(s))
  }

  /** Markup removal only deletes characters. */
  lemma {:induction false} StripTagsChars(s: string, c: char)
    requires c in StripTags(s)
    ensures c in s
    decreases |s|
  {
    if |s| > 0 {
      if s[0] == '<' && '>' in s[1..] {
        var k := IndexOf(s[1..], '>');
        StripTagsChars(s[k + 2..], c);
        assert s[k + 2..] == s[1..][k + 1..];
      } else if c != s[0] {
        StripTagsChars(s[1..], c);
      }
    }
  }

  /** After markup removal no "<…>" span is left. */
  lemma {:induction false} StripTagsTagFree(s: string)
    ensures TagFree(StripTags(s))
    decreases |s|
  {
    if |s| > 0 {
      if s[0] == '<' && '>' in s[1..] {
        var k := IndexOf(s[1..], '>');
        StripTagsTagFree(s[k + 2..]);
      } else {
        StripTagsTagFree(s[1..]);
        var rest := StripTags(s[1..]);
        if s[0] == '<' && '>' in rest {
          StripTagsChars(s[1..], '>');
        }
        var r := [s[0]] + rest;
        forall i, j | 0 <= i < j < |r| && r[i] == '<' ensures r[j] != '>' {
          if i == 0 {
            assert r[j] in rest by { assert r[j] == rest[j - 1]; }
          } else {
            assert r[i] == rest[i - 1] && r[j] == rest[j - 1];
          }
        }
      }
    }
  }

  /** Markup removal leaves markup-free text unchanged. */
  lemma {:induction false} StripTagsFixed(s: string)
    requires TagFree(s)
    ensures StripTags(s) == s
    decreases |s|
  {
    if |s| > 0 {
      if s[0] == '<' {
        assert '>' !in s[1..] by {
          forall j | 0 <= j < |s[1..]| ensures s[1..][j] != '>' { assert s[1..][j] == s[j + 1]; }
        }
      }
      assert TagFree(s[1..]) by {
        forall i, j | 0 <= i < j < |s[1..]| && s[1..][i] == '<' ensures s[1..][j] != '>' {
          assert s[1..][i] == s[i + 1] && s[1..][j] == s[j + 1];
        }
      }
      StripTagsFixed(s[1..]);
      assert s == [s[0]] + s[1..];
    }
  }

  /** Trimming keeps text markup-free. */
  lemma TrimTagFree(s: string)
    requires TagFree(s)
    ensures TagFree(Trim(s))
  {
    TrimSlice(s);
    var a, b :| 0 <= a <= b <= |s| && Trim(s) == s[a..b];
    var t := Trim(s);
    forall i, j | 0 <= i < j < |t| && t[i] == '<' ensures t[j] != '>' {
      assert t[i] == s[a + i] && t[j] == s[a + j];
    }
  }

  /** The sanitised value holds no "<…>" span. */
  lemma CleanTagFree(s: string)
    ensures TagFree(Clean(s))
  {
    StripTagsTagFree(s);
    TrimTagFree(StripTags(s));
  }

  /** Sanitising twice is sanitising once. */
  lemma CleanIdempotent(s: string)
    ensures Clean(Clean(s)) == Clean(s)
  {
    CleanTagFree(s);
    StripTagsFixed(Clean(s));
    TrimIdempotent(StripTags(s));
  }

  /** Text without "<" or white space comes through sanitising unchanged. */
  lemma CleanPlain(s: string)
    requires forall i :: 0 <= i < |s| ==> s[i] != '<' && !IsJsSpace(s[i])
    ensures Clean(s) == s
  {
    StripTagsFixed(s);
    TrimNoSpace(s);
  }

  /** The fields of the portal's form (`formData` in src/App.js). */
  datatype Field = Username | Email | AccountNumber | Password | Amount | Currency | SwiftCode | Description

  /** The field's key in `formData` and in `patterns`. */
  function Name(f: Field): string {
    match f
    case Username => "username"
    case Email => "email"
    case AccountNumber => "accountNumber"
    case Password => "password"
    case Amount => "amount"
    case Currency => "currency"
    case SwiftCode => "swiftCode"
    case Description => "description"
  }

  /** `patterns[name]` is defined. */
  predicate HasPattern(f: Field) {
    !f.Currency? && !f.Description?
  }

  /** `patterns[name].test(value)` for a field that has a pattern. */
  predicate Matches(f: Field, s: string)
    requires HasPattern(f)
  {
    match f
    case Username => IsUsername(s)
    case Email => IsEmail(s)
    case AccountNumber => IsAccountNumber(s)
    case Password => IsPassword(s)
    case Amount => IsAmount(s)
    case SwiftCode => IsSwiftCode(s)
  }

  /** The message a failing field gets. */
  function ErrorText(f: Field): string {
    "Invalid " + Name(f) + " format"
  }

  /** Every value a whitelist pattern accepts is unchanged by sanitising:
      no pattern admits "<" or white space. */
  lemma CleanKeepsValid(f: Field, s: string)
    requires HasPattern(f) && Matches(f, s)
    ensures Clean(s) == s
  {
    match f
    case Username => PlainBy(s, IsWordChar);
    case AccountNumber => PlainBy(s, IsUpperAlnum);
    case Password => PlainBy(s, IsPasswordChar);
    case SwiftCode => PlainBy(s, IsUpperAlnum);
    case Amount => AmountPlain(s);
    case Email => EmailPlain(s);
  }

  /** A class of characters without "<" or white space keeps every string
      drawn from it out of sanitising's reach. */
  lemma PlainBy(s: string, p: char -> bool)
    requires forall c :: p(c) ==> c != '<' && !IsJsSpace(c)
    requires forall i :: 0 <= i < |s| ==> p(s[i])
    ensures Clean(s) == s
  {
    CleanPlain(s);
  }

  lemma AmountPlain(s: string)
    requires IsAmount(s)
    ensures Clean(s) == s
  {
    var k := IndexOf(s, '.');
    forall i | 0 <= i < |s| ensures s[i] != '<' && !IsJsSpace(s[i]) {
      if k >= 0 && i != k {
        if i < k { assert s[i] == s[..k][i]; } else { assert s[i] == s[k + 1..][i - k - 1]; }
      }
    }
    CleanPlain(s);
  }

  lemma EmailPlain(s: string)
    requires IsEmail(s)
    ensures Clean(s) == s
  {
    var a := IndexOf(s, '@');
    var j := a + 1 + LastIndexOf(s[a + 1..], '.');
    assert EmailAt(s, a, j);
    forall i | 0 <= i < |s| ensures s[i] != '<' && !IsJsSpace(s[i]) {
      if i < a { assert s[i] == s[..a][i]; }
      else if a < i < j { assert s[i] == s[a + 1..j][i - a - 1]; }
      else if j < i { assert s[i] == s[j + 1..][i - j - 1]; }
    }
    CleanPlain(s);
  }

  /** What `sanitizeInput` hands back, with the error map it leaves behind. */
  datatype Sanitized = Sanitized(value: string, errors: map<Field, string>)

  /** The error map after a pattern check: the field's entry set to its
      message when the check failed, removed when it passed. */
  function SetError(f: Field, failed: bool, errors: map<Field, string>): (r: map<Field, string>)
    ensures f in r <==> failed
    ensures failed ==> r[f] == ErrorText(f)
    ensures forall g :: g != f ==> (g in r <==> g in errors)
    ensures forall g :: g != f && g in errors ==> r[g] == errors[g]
  {
    if failed then errors[f := ErrorText(f)] else errors - {f}
  }

  /** `sanitizeInput(name, value)` with the `errors` state it updates: the
      value is sanitised; a field with a pattern gets its error set exactly
      when the sanitised value fails the pattern, and cleared otherwise;
      every other entry of the map is left as it was. */
  function SanitizeInput(f: Field, value: string, errors: map<Field, string>): (r: Sanitized)
    ensures r.value == Clean(value) && TagFree(r.value)
    ensures HasPattern(f) ==> (f in r.errors <==> !Matches(f, r.value))
    ensures HasPattern(f) && f in r.errors ==> r.errors[f] == ErrorText(f)
    ensures !HasPattern(f) ==> r.errors == errors
    ensures forall g :: g != f ==> (g in r.errors <==> g in errors)
    ensures forall g :: g != f && g in errors ==> r.errors[g] == errors[g]
  {
    CleanTagFree(value);
    if HasPattern(f) then Sanitized(Clean(value), SetError(f, !Matches(f, Clean(value)), errors))
    else Sanitized(Clean(value), errors)
  }

  /** Sanitising a value a second time changes neither the value nor the
      error map. */
  lemma SanitizeInputIdempotent(f: Field, value: string, errors: map<Field, string>)
    ensures var once := SanitizeInput(f, value, errors);
            SanitizeInput(f, once.value, once.errors) == once
  {
    var once := SanitizeInput(f, value, errors);
    CleanIdempotent(value);
    if HasPattern(f) {
      var failed := !Matches(f, Clean(value));
      SetErrorTwice(f, failed, errors);
    }
  }

  /** Recording the same verdict twice records it once. */
  lemma SetErrorTwice(f: Field, failed: bool, errors: map<Field, string>)
    ensures SetError(f, failed, SetError(f, failed, errors)) == SetError(f, failed, errors)
  {
    var once := SetError(f, failed, errors);
    var twice := SetError(f, failed, once);
    assert forall g :: g in twice <==> g in once;
    assert forall g :: g in twice ==> twice[g] == once[g];
  }
}

=== FILE: sessions.dfy ===
/** The refresh-token lifecycle (Backend/server.js): `POST /token/refresh`
    and `POST /logout`, over the stored `RefreshToken` documents. */
module Sessions {
  import opened Js
  import opened Records
  import opened Tokens

  /** `RefreshToken.findOne({ token })` finds a document. */
  predicate Stored(rs: seq<RefreshRecord>, token: string) {
    exists k :: 0 <= k < |rs| && rs[k].token == token
  }

  const MissingRefresh := Response(400, Message("Missing refreshToken"))
  const UnknownRefresh := Response(401, Message("Invalid refresh token"))
  const UserGone := Response(401, Message("User not found"))
  const ExpiredRefresh := Response(401, Message("Invalid or expired refresh token"))

  /** `POST /token/refresh`: a fresh access token for the user a stored,
      still valid token names. The store is only read. */
  function Refresh(svc: Services, st: Store, token: Option<string>, nowMs: nat): (o: Outcome)
    ensures o.store == st
    ensures !Present(token) ==> o.response == MissingRefresh
    ensures Present(token) && !Stored(st.refreshTokens, token.value) ==> o.response == UnknownRefresh
    ensures Present(token) && Stored(st.refreshTokens, token.value) && Verify(svc, token.value, nowMs).None? ==>
              o.response == ExpiredRefresh
    ensures Present(token) && Stored(st.refreshTokens, token.value) && Verify(svc, token.value, nowMs).Some?
            && UserIndex(st.users, Verify(svc, token.value, nowMs).value.userId).None? ==>
              o.response == UserGone
    ensures o.response.status == 200 <==>
              && Present(token) && Stored(st.refreshTokens, token.value)
              && Verify(svc, token.value, nowMs).Some?
              && UserIndex(st.users, Verify(svc, token.value, nowMs).value.userId).Some?
    ensures o.response.status == 200 ==>
              exists k :: 0 <= k < |st.users| && st.users[k].id == Verify(svc, token.value, nowMs).value.userId
                          && o.response == Response(200, Refreshed(SignAccessToken(svc, st.users[k], nowMs)))
    ensures o.response.status != 200 ==> o.response.status in {400, 401}
  {
    if !Present(token) then Outcome(st, MissingRefresh)
    else if !Stored(st.refreshTokens, token.value) then Outcome(st, UnknownRefresh)
    else match Verify(svc, token.value, nowMs)
      case None => Outcome(st, ExpiredRefresh)
      case Some(c) =>
        match UserIndex(st.users, c.userId)
        case None => Outcome(st, UserGone)
        case Some(k) => Outcome(st, Response(200, Refreshed(SignAccessToken(svc, st.users[k], nowMs))))
  }

  /** `RefreshToken.deleteOne({ token })`: the first matching document goes. */
  function RemoveFirst(rs: seq<RefreshRecord>, token: string): (r: seq<RefreshRecord>)
    ensures Stored(rs, token) ==> |r| == |rs| - 1
    ensures !Stored(rs, token) ==> r == rs
  {
    if |rs| == 0 then []
    else if rs[0].token == token then rs[1..]
    else [rs[0]] + RemoveFirst(rs[1..], token)
  }

  /** `deleteOne` removes a document holding the token and nothing else:
      every other document keeps its count, none gains one. */
  lemma {:induction false} RemoveFirstCounts(rs: seq<RefreshRecord>, token: string)
    ensures forall x: RefreshRecord :: x.token != token ==> multiset(RemoveFirst(rs, token))[x] == multiset(rs)[x]
    ensures forall x :: multiset(RemoveFirst(rs, token))[x] <= multiset(rs)[x]
  {
    if |rs| > 0 {
      assert rs == [rs[0]] + rs[1..];
      if rs[0].token != token {
        RemoveFirstCounts(rs[1..], token);
      }
    }
  }

  /** `RefreshToken.deleteMany({ token })`: every matching document goes. */
  function RemoveAll(rs: seq<RefreshRecord>, token: string): (r: seq<RefreshRecord>)
    ensures !Stored(r, token)
    ensures forall x :: multiset(r)[x] == if x.token == token then 0 else multiset(rs)[x]
  {
    if |rs| == 0 then []
    else
      assert rs == [rs[0]] + rs[1..];
      if rs[0].token == token then RemoveAll(rs[1..], token)
      else [rs[0]] + RemoveAll(rs[1..], token)
  }

  /** `POST /logout` as written: with a token, one matching document is
      deleted; the answer is `{ ok: true }` either way. */
  function LogoutAsWritten(st: Store, token: Option<string>): (o: Outcome)
    ensures o.response == Response(200, LoggedOut)
    ensures o.store.users == st.users && o.store.payments == st.payments && o.store.nextId == st.nextId
    ensures !Present(token) || !Stored(st.refreshTokens, token.value) ==> o.store == st
    ensures Present(token) && Stored(st.refreshTokens, token.value) ==>
              |o.store.refreshTokens| == |st.refreshTokens| - 1
    ensures Present(token) ==> forall x: RefreshRecord :: x.token != token.value ==>
              multiset(o.store.refreshTokens)[x] == multiset(st.refreshTokens)[x]
    ensures forall x :: multiset(o.store.refreshTokens)[x] <= multiset(st.refreshTokens)[x]
  {
    if Present(token) then
      RemoveFirstCounts(st.refreshTokens, token.value);
      Outcome(st.(refreshTokens := RemoveFirst(st.refreshTokens, token.value)), Response(200, LoggedOut))
    else Outcome(st, Response(200, LoggedOut))
  }

  /** `POST /logout` as intended: with a token, no document for it is left;
      every other document, user and payment stays. */
  function Logout(st: Store, token: Option<string>): (o: Outcome)
    ensures o.response == Response(200, LoggedOut)
    ensures !Present(token) ==> o.store == st
    ensures o.store.users == st.users && o.store.payments == st.payments && o.store.nextId == st.nextId
    ensures Present(token) ==> !Stored(o.store.refreshTokens, token.value)
    ensures Present(token) ==> forall x: RefreshRecord :: x.token != token.value ==>
              multiset(o.store.refreshTokens)[x] == multiset(st.refreshTokens)[x]
  {
    if Present(token) then Outcome(st.(refreshTokens := RemoveAll(st.refreshTokens, token.value)), Response(200, LoggedOut))
    else Outcome(st, Response(200, LoggedOut))
  }

  /** With nothing to delete, deletion changes nothing. */
  lemma {:induction false} RemoveAllAbsent(rs: seq<RefreshRecord>, token: string)
    requires !Stored(rs, token)
    ensures RemoveAll(rs, token) == rs
  {
    if |rs| > 0 {
      assert !Stored(rs[1..], token) by {
        forall k | 0 <= k < |rs[1..]| ensures rs[1..][k].token != token { assert rs[1..][k] == rs[k + 1]; }
      }
      RemoveAllAbsent(rs[1..], token);
    }
  }

  /** Logging out twice is logging out once. */
  lemma LogoutIdempotent(st: Store, token: Option<string>)
    ensures Logout(Logout(st, token).store, token) == Logout(st, token)
  {
    if Present(token) {
      RemoveAllAbsent(Logout(st, token).store.refreshTokens, token.value);
    }
  }

  /** After logout the token no longer refreshes, whatever its signature. */
  lemma LogoutRevokes(svc: Services, st: Store, token: string, nowMs: nat)
    requires token != ""
    ensures Refresh(svc, Logout(st, Some(token)).store, Some(token), nowMs).response == UnknownRefresh
  {
  }

  /** The deleteOne logout revokes as well, provided the token was stored at
      most once. */
  lemma LogoutAsWrittenRevokesSingle(svc: Services, st: Store, token: string, nowMs: nat)
    requires token != ""
    requires forall j, k :: 0 <= j < k < |st.refreshTokens| ==>
               st.refreshTokens[j].token != token || st.refreshTokens[k].token != token
    ensures Refresh(svc, LogoutAsWritten(st, Some(token)).store, Some(token), nowMs).response == UnknownRefresh
  {
    RemoveFirstSingle(st.refreshTokens, token);
  }

  lemma {:induction false} RemoveFirstSingle(rs: seq<RefreshRecord>, token: string)
    requires forall j, k :: 0 <= j < k < |rs| ==> rs[j].token != token || rs[k].token != token
    ensures !Stored(RemoveFirst(rs, token), token)
  {
    if |rs| > 0 {
      if rs[0].token == token {
        forall k | 0 <= k < |rs[1..]| ensures rs[1..][k].token != token { assert rs[1..][k] == rs[k + 1]; }
      } else {
        RemoveFirstSingle(rs[1..], token);
        var r := [rs[0]] + RemoveFirst(rs[1..], token);
        forall k | 0 <= k < |r| ensures r[k].token != token {
          if k > 0 { assert r[k] == RemoveFirst(rs[1..], token)[k - 1]; }
        }
      }
    }
  }
}

=== FILE: text.dfy ===
/** Characters and strings: the ASCII classes the portal's patterns use,
    `String.prototype.trim`, `split` on one character, and ASCII case
    mapping. */
module Text {

  predicate IsDigit(c: char) { '0' <= c <= '9' }
  predicate IsUpper(c: char) { 'A' <= c <= 'Z' }
  predicate IsLower(c: char) { 'a' <= c <= 'z' }
  predicate IsLetter(c: char) { IsUpper(c) || IsLower(c) }
  predicate IsAlnum(c: char) { IsLetter(c) || IsDigit(c) }
  predicate IsUpperAlnum(c: char) { IsUpper(c) || IsDigit(c) }

  /** The characters `trim` removes: ECMAScript WhiteSpace and LineTerminator. */
  predicate IsJsSpace(c: char) {
    || c == '\t' || c == '\n' || c == '\U{000B}' || c == '\U{000C}' || c == '\r'
    || c == ' ' || c == '\U{00A0}' || c == '\U{1680}'
    || ('\U{2000}' <= c <= '\U{200A}')
    || c == '\U{2028}' || c == '\U{2029}' || c == '\U{202F}' || c == '\U{205F}'
    || c == '\U{3000}' || c == '\U{FEFF}'
  }

  /** Leading white space removed: what was removed is all white space, and
      what is left does not start with any. `TrimStartSuffix` adds that the
      result is a suffix of `s`. */
  function TrimStart(s: string): (r: string)
    ensures |r| <= |s|
    ensures forall i :: 0 <= i < |s| - |r| ==> IsJsSpace(s[i])
    ensures r == [] || !IsJsSpace(r[0])
  {
    if |s| > 0 && IsJsSpace(s[0]) then TrimStart(s[1..]) else s
  }

  /** Trailing white space removed, symmetrically to `TrimStart`;
      `TrimEndPrefix` adds that the result is a prefix of `s`. */
  function TrimEnd(s: string): (r: string)
    ensures |r| <= |s|
    ensures forall i :: |r| <= i < |s| ==> IsJsSpace(s[i])
    ensures r == [] || !IsJsSpace(r[|r| - 1])
  {
    if |s| > 0 && IsJsSpace(s[|s| - 1]) then TrimEnd(s[..|s| - 1]) else s
  }

  lemma {:induction false} TrimStartSuffix(s: string)
    ensures TrimStart(s) == s[|s| - |TrimStart(s)|..]
  {
    if |s| > 0 && IsJsSpace(s[0]) {
      TrimStartSuffix(s[1..]);
    }
  }

  lemma {:induction false} TrimEndPrefix(s: string)
    ensures TrimEnd(s) == s[..|TrimEnd(s)|]
  {
    if |s| > 0 && IsJsSpace(s[|s| - 1]) {
      TrimEndPrefix(s[..|s| - 1]);
    }
  }

  /** `s.trim()` */
  function Trim(s: string): string {
    TrimEnd(TrimStart(s))
  }

  /** `trim` keeps a contiguous slice of its input and drops only white
      space around it; it leaves alone a string whose ends are not white
      space, and trimming twice is trimming once. */
  lemma TrimSlice(s: string)
    ensures exists a, b ::
              && 0 <= a <= b <= |s| && Trim(s) == s[a..b]
              && (forall i :: 0 <= i < a ==> IsJsSpace(s[i]))
              && (forall i :: b <= i < |s| ==> IsJsSpace(s[i]))
    ensures Trim(s) == [] || (!IsJsSpace(Trim(s)[0]) && !IsJsSpace(Trim(s)[|Trim(s)| - 1]))
  {
    var t := TrimStart(s);
    var a := |s| - |t|;
    var r := TrimEnd(t);
    var b := a + |r|;
    TrimStartSuffix(s);
    TrimEndPrefix(t);
    SliceOfSlice(s, a, |r|);
    forall i | b <= i < |s| ensures IsJsSpace(s[i]) {
      assert s[i] == t[i - a];
    }
    assert Trim(s) == s[a..b];
    if r != [] {
      assert r[0] == t[0];
    }
  }

  lemma SliceOfSlice(s: string, a: nat, n: nat)
    requires a + n <= |s|
    ensures s[a..][..n] == s[a..a + n]
  {
  }

  lemma TrimUnchanged(s: string)
    requires s == [] || (!IsJsSpace(s[0]) && !IsJsSpace(s[|s| - 1]))
    ensures Trim(s) == s
  {
  }

  lemma TrimIdempotent(s: string)
    ensures Trim(Trim(s)) == Trim(s)
  {
    TrimSlice(s);
    TrimUnchanged(Trim(s));
  }

  /** A string without white space is its own trim. */
  lemma TrimNoSpace(s: string)
    requires forall i :: 0 <= i < |s| ==> !IsJsSpace(s[i])
    ensures Trim(s) == s
  {
    TrimUnchanged(s);
  }

  /** `s.split(sep)` for a one-character separator: always at least one
      piece, and no piece contains the separator. */
  function Split(s: string, sep: char): (r: seq<string>)
    ensures |r| >= 1
    ensures forall k :: 0 <= k < |r| ==> sep !in r[k]
  {
    if |s| == 0 then [""]
    else
      var rest := Split(s[1..], sep);
      if s[0] == sep then [""] + rest
      else [[s[0]] + rest[0]] + rest[1..]
  }

  /** `pieces.join(sep)` */
  function Join(pieces: seq<string>, sep: char): string
    requires |pieces| >= 1
  {
    if |pieces| == 1 then pieces[0] else pieces[0] + [sep] + Join(pieces[1..], sep)
  }

  /** Joining the pieces of a split gives the string back. */
  lemma {:induction false} JoinSplit(s: string, sep: char)
    ensures Join(Split(s, sep), sep) == s
  {
    if |s| > 0 {
      JoinSplit(s[1..], sep);
      var rest := Split(s[1..], sep);
      if s[0] != sep {
        var r := Split(s, sep);
        assert r[1..] == rest[1..];
        if |rest| == 1 {
          assert Join(r, sep) == [s[0]] + rest[0];
        } else {
          assert Join(r, sep) == [s[0]] + rest[0] + [sep] + Join(rest[1..], sep);
        }
        assert s == [s[0]] + s[1..];
      } else {
        assert s == [s[0]] + s[1..];
      }
    }
  }

  /** Splitting a join of separator-free pieces gives the pieces back. */
  lemma {:induction false} SplitJoin(pieces: seq<string>, sep: char)
    requires |pieces| >= 1
    requires forall k :: 0 <= k < |pieces| ==> sep !in pieces[k]
    ensures Split(Join(pieces, sep), sep) == pieces
  {
    if |pieces| == 1 {
      SplitPiece(pieces[0], sep);
    } else {
      SplitJoin(pieces[1..], sep);
      SplitPrefix(pieces[0], Join(pieces[1..], sep), sep);
      assert pieces == [pieces[0]] + pieces[1..];
    }
  }

  /** A separator-free string is one piece. */
  lemma {:induction false} SplitPiece(p: string, sep: char)
    requires sep !in p
    ensures Split(p, sep) == [p]
  {
    if |p| > 0 {
      SplitPiece(p[1..], sep);
      assert p == [p[0]] + p[1..];
    }
  }

  /** A separator-free prefix followed by the separator becomes a first piece. */
  lemma {:induction false} SplitPrefix(p: string, tail: string, sep: char)
    requires sep !in p
    ensures Split(p + [sep] + tail, sep) == [p] + Split(tail, sep)
  {
    if |p| == 0 {
      assert (p + [sep] + tail)[1..] == tail;
    } else {
      assert (p + [sep] + tail)[1..] == p[1..] + [sep] + tail;
      SplitPrefix(p[1..], tail, sep);
      assert p == [p[0]] + p[1..];
    }
  }

  /** The variation selectors U+FE0E and U+FE0F. */
  predicate IsVariationSelector(c: char) { c == '\U{FE0E}' || c == '\U{FE0F}' }

  /** The length validator.js's `isLength` measures: the string's
      characters (code points, so a surrogate pair counts once) less every
      variation selector. */
  function ValidatorLength(s: string): (r: nat)
    ensures r <= |s|
  {
    if |s| == 0 then 0
    else (if IsVariationSelector(s[0]) then 0 else 1) + ValidatorLength(s[1..])
  }

  /** `isLength`'s count is the length less the occurrences of each
      variation selector. */
  lemma {:induction false} ValidatorLengthCounts(s: string)
    ensures ValidatorLength(s) == |s| - multiset(s)['\U{FE0E}'] - multiset(s)['\U{FE0F}']
  {
    if |s| > 0 {
      assert s == [s[0]] + s[1..];
      ValidatorLengthCounts(s[1..]);
    }
  }

  /** Without variation selectors `isLength` counts every character. */
  lemma {:induction false} ValidatorLengthPlain(s: string)
    requires forall i :: 0 <= i < |s| ==> !IsVariationSelector(s[i])
    ensures ValidatorLength(s) == |s|
  {
    if |s| > 0 {
      ValidatorLengthPlain(s[1..]);
    }
  }

  function LowerChar(c: char): char {
    if IsUpper(c) then (c as int + 32) as char else c
  }

  function UpperChar(c: char): char {
    if IsLower(c) then (c as int - 32) as char else c
  }

  /** `toLowerCase` on the ASCII letters; other characters are kept. */
  function ToLower(s: string): (r: string)
    ensures |r| == |s|
    ensures forall i :: 0 <= i < |s| ==> r[i] == LowerChar(s[i])
  {
    if |s| == 0 then [] else [LowerChar(s[0])] + ToLower(s[1..])
  }

  /** `toUpperCase` on the ASCII letters; other characters are kept. */
  function ToUpper(s: string): (r: string)
    ensures |r| == |s|
    ensures forall i :: 0 <= i < |s| ==> r[i] == UpperChar(s[i])
  {
    if |s| == 0 then [] else [UpperChar(s[0])] + ToUpper(s[1..])
  }
}

=== FILE: tokens.dfy ===
/** Token issue and verification (`signAccessToken`, `signRefreshToken`,
    `jwt.verify` in Backend/server.js) over an abstract signer, and the
    abstract password hasher.

    The libraries the server calls (jsonwebtoken, bcryptjs and
    express-validator's `isEmail`/`normalizeEmail`) are not modelled; they
    enter as the functions of a `Services` value. */
module Tokens {
  import opened Js
  import opened Records

  /** A token's payload: the access payload carries the profile fields,
      the refresh payload only the user id. */
  datatype Claims =
    | AccessClaims(userId: UserId, email: string, username: string, accountNumber: Option<string>)
    | RefreshClaims(userId: UserId)

  /** A JSON Web Token's content: payload, `iat` and `exp` in seconds. */
  datatype Jwt = Jwt(claims: Claims, issuedAt: nat, expiresAt: nat)

  /** The foreign functions the server relies on: signing and decoding
      with the server's secret, bcrypt hash and compare, and the two email
      helpers of express-validator. Signing is deterministic, as HS256 is. */
  datatype Services = Services(
    sign: Jwt -> string,
    decode: string -> Option<Jwt>,
    hash: string -> string,
    compare: (string, string) -> bool,
    isEmail: string -> bool,
    normalizeEmail: string -> string)

  /** What the libraries promise: a token signed with the secret decodes to
      what was signed and is a non-empty string without spaces (dot-joined
      base64url segments); a password matches its own hash, which differs
      from it. */
  ghost predicate Sound(svc: Services) {
    && (forall t :: svc.decode(svc.sign(t)) == Some(t))
    && (forall t :: svc.sign(t) != "" && ' ' !in svc.sign(t))
    && (forall p :: svc.compare(p, svc.hash(p)))
    && (forall p :: svc.hash(p) != p)
  }

  /** `expiresIn: "15m"` */
  const AccessLifetime: nat := 15 * 60
  /** `expiresIn: "30d"` */
  const RefreshLifetime: nat := 30 * 24 * 60 * 60
  /** `30 * 24 * 60 * 60 * 1000`, the refresh record's expiry offset in ms. */
  const RefreshRecordLifetime: nat := 30 * 24 * 60 * 60 * 1000

  /** `Math.floor(Date.now() / 1000)`, the clock jsonwebtoken reads. */
  function Seconds(nowMs: nat): nat {
    nowMs / 1000
  }

  function AccessJwt(u: User, nowMs: nat): Jwt {
    Jwt(AccessClaims(u.id, u.email, u.username, u.accountNumber), Seconds(nowMs), Seconds(nowMs) + AccessLifetime)
  }

  function RefreshJwt(u: User, nowMs: nat): Jwt {
    Jwt(RefreshClaims(u.id), Seconds(nowMs), Seconds(nowMs) + RefreshLifetime)
  }

  /** `signAccessToken(user)` */
  function SignAccessToken(svc: Services, u: User, nowMs: nat): string {
    svc.sign(AccessJwt(u, nowMs))
  }

  /** `signRefreshToken(user)` */
  function SignRefreshToken(svc: Services, u: User, nowMs: nat): string {
    svc.sign(RefreshJwt(u, nowMs))
  }

  /** `jwt.verify(token, JWT_SECRET)`: the payload of a token that decodes
      with the secret and whose `exp` is still ahead of the clock. */
  function Verify(svc: Services, token: string, nowMs: nat): (r: Option<Claims>)
    ensures r.Some? <==> svc.decode(token).Some? && Seconds(nowMs) < svc.decode(token).value.expiresAt
    ensures r.Some? ==> r.value == svc.decode(token).value.claims
  {
    match svc.decode(token)
    case None => None
    case Some(t) => if Seconds(nowMs) < t.expiresAt then Some(t.claims) else None
  }

  /** An access token verifies, to the user's id, email, username and
      account number, exactly until 15 minutes after the second it was
      issued in. */
  lemma AccessTokenLifetime(svc: Services, u: User, issued: nat, now: nat)
    requires Sound(svc)
    ensures Verify(svc, SignAccessToken(svc, u, issued), now)
            == if Seconds(now) < Seconds(issued) + 15 * 60
               then Some(AccessClaims(u.id, u.email, u.username, u.accountNumber))
               else None
  {
    assert svc.decode(svc.sign(AccessJwt(u, issued))) == Some(AccessJwt(u, issued));
  }

  /** A refresh token verifies, to the user id alone, exactly until 30
      days after the second it was issued in. */
  lemma RefreshTokenLifetime(svc: Services, u: User, issued: nat, now: nat)
    requires Sound(svc)
    ensures Verify(svc, SignRefreshToken(svc, u, issued), now)
            == if Seconds(now) < Seconds(issued) + 30 * 24 * 60 * 60
               then Some(RefreshClaims(u.id))
               else None
  {
    assert svc.decode(svc.sign(RefreshJwt(u, issued))) == Some(RefreshJwt(u, issued));
  }
}
